=== FILE: README.md ===
# Flight maneuvers: a Dafny model of the evaluation logic

This project models the flight-evaluation core of a steep-turn training app.
The app reads telemetry (heading, altitude, airspeed, bank, engine rpm)
from a flight simulator. It decides whether the pilot may start a steep
turn, watches the turn sample by sample, and judges the outcome. All of
it is stated as pure functions over immutable records.

- **Heading arithmetic** (`Headings`):
  - the standard-scale normalisation;
  - the shorter circular distance between two headings;
  - the forward distance from the entry heading.
  Each is tied to a reference reduction modulo 360 (`Mod360`).
- **Running statistics** (`PerformanceRecord`): one channel each for
  altitude, airspeed and bank. A channel holds the sum, the count, the
  last value and the lower and upper limits. The update loop is a
  `method` with loop invariants, and a `function` gives the same update
  in one step.
- **Steep-turn observer** (`SteepTurnObserver`): the source keeps its
  state in module-level variables. Here they are one `ObserverState`
  record. One evaluation of the selector is
  `Step(state, sample, recording, entry)`, which returns the next state
  and the selector's output (terminate, progress, success, performance
  overview).
- **Maneuver gating**:
  - `RequirementsCalculator`: the steep-turn entry requirements.
  - `ManeuverStatusObserver`: the engagement and stop predicates.
  - `RequirementsContainer`: the older requirement list.
- **Reducers**:
  - `Reducers`: the maneuver lifecycle, the flight-data merge, the data
    provider record and the combined store.
  - `LegacyReducers`: the older store shape, with the maneuver selection
    and the per-maneuver training counters.
- **UI helpers**:
  - `ManeuverOverviewItem`: accuracy and frequency labels.
  - `ProviderConfigurations`: configuration display names and the
    configuration item loop.

Shared data lives in `Flight` (flight data, maneuver types, selections,
datarefs, provider kinds, configuration entries) and `SteepTurnCriteria`
(the success tolerances). `Wrappers` holds `Option`. `Option` stands
for JavaScript's `undefined`, and for the empty object `{}` that the
maneuver state uses for "not set".

Where the code and its comments disagree, the model follows the code:

- The comment on `getHeadingOnStandardScale` documents inputs up to and
  including 720, but 720 maps to 360.
- The display name ends in colon and space, where the comment example
  shows a colon only.

Behaviour a reader might not expect, modelled as the code has it:

- The bank mean is judged as `|mean - 45| <= 5`, whatever the turn
  direction.
- `rollOutHeading` is overwritten on every cycle that rolls out.
- The roll-out and reversal tolerances are inclusive. With entry 350,
  a heading of 340 is within tolerance (`ReversalToleranceIsInclusive`).
- The frequency descriptor labels a negative value "Low".

## Model

| member | source | states |
|---|---|---|
| Headings.Mod360 | src/selectors/maneuver_selectors/SteepTurnObserver.js:311-326 | reference reduction: the result is a compass heading in [0, 360) and differs from x by whole turns |
| Headings.Mod360Near | src/selectors/maneuver_selectors/SteepTurnObserver.js:315-326 | on [-360, 720) reduction adds one turn, removes one turn, or keeps the value |
| Headings.StandardScale | src/selectors/maneuver_selectors/SteepTurnObserver.js:317-326 | on [-360, 720) the result is a heading in [0, 360); it is the identity on headings |
| Headings.StandardScaleAtDocumentedUpperBound | src/selectors/maneuver_selectors/SteepTurnObserver.js:312-320 | the documented upper end 720 maps to 360, which is not a heading below 360 as the comment promises |
| Headings.StandardScaleIsMod360 | src/selectors/maneuver_selectors/SteepTurnObserver.js:311-326 | on [-360, 720) the standard scale equals reduction modulo 360 and is congruent to its input |
| Headings.CircularDistance | src/selectors/maneuver_selectors/SteepTurnObserver.js:334-343 | for two headings the distance lies in [0, 180] and is 0 exactly when the headings are equal |
| Headings.CircularDistanceIsShorterWay | src/selectors/maneuver_selectors/SteepTurnObserver.js:328-343 | the distance is the smaller of the two differences reduced modulo 360, so it is the shorter way round |
| Headings.ForwardDistance | src/selectors/maneuver_selectors/SteepTurnObserver.js:352-361 | from an entry heading to a current heading the distance is itself a heading in [0, 360) |
| Headings.ForwardDistanceIsMod360 | src/selectors/maneuver_selectors/SteepTurnObserver.js:345-361 | the forward distance is (current - entry) modulo 360 |
| Headings.CircularDistanceSymmetric | src/selectors/maneuver_selectors/SteepTurnObserver.js:334-343 | the distance does not depend on the order of the two headings |
| Headings.ForwardDistanceComplement | src/selectors/maneuver_selectors/SteepTurnObserver.js:352-361 | for distinct headings the forward distances out and back sum to 360 |
| Headings.CircularIsShorterForward | src/selectors/maneuver_selectors/SteepTurnObserver.js:334-361 | the circular distance is the smaller of the two forward distances |
| Headings.Examples | src/selectors/maneuver_selectors/SteepTurnObserver.js:311-361 | the documented examples: 367 maps to 7; (10, 30) and (350, 10) are 20 apart; entry 10 to 350 is 340 forward |
| PerformanceRecord.StartChannel | src/selectors/maneuver_selectors/SteepTurnObserver.js:277-285 | a channel after its first value has count 1, and sum, last value and both limits equal to it; it is well formed |
| PerformanceRecord.RecordValue | src/selectors/maneuver_selectors/SteepTurnObserver.js:374-388 | a value equal to the last one changes nothing; otherwise the count grows by exactly 1, the sum by the value, the last value becomes it and the limits widen to include it; the channel invariant (limits bracket the last value and the mean) is preserved |
| PerformanceRecord.InitializeRecording | src/selectors/maneuver_selectors/SteepTurnObserver.js:274-309 | every channel is the started channel of its value (count 1; sum, last value and limits equal to it); roll-out heading undefined, counter, last heading and progress zero; the record invariant holds |
| PerformanceRecord.UpdatePerformanceRecord | src/selectors/maneuver_selectors/SteepTurnObserver.js:367-390 | only the three channels change, and the record invariant is preserved |
| PerformanceRecord.UpdateChannels | src/selectors/maneuver_selectors/SteepTurnObserver.js:367-390 | the loop over the three keys updates channel i from value i alone, keeps the heading bookkeeping, and gives the same record as the one-step update |
| PerformanceRecord.MeanWithinLimits | src/selectors/maneuver_selectors/SteepTurnObserver.js:231-248 | in a well-formed channel the mean sum/count lies between the lower and upper limit |
| SteepTurnObserver.ZeroCrossingAcceptable | src/selectors/maneuver_selectors/SteepTurnObserver.js:216-220 | a crossing of north is acceptable with counter 0; with counter 1 exactly when the entry heading is above 350; never after two |
| SteepTurnObserver.ZeroCrossingAcceptableAntitone | src/selectors/maneuver_selectors/SteepTurnObserver.js:216-220 | acceptability is antitone in the counter: if a crossing is acceptable after more crossings, it is acceptable after fewer; this is the step behind CrossingAcceptabilityNeverRegained |
| SteepTurnObserver.RollingInCorrectDirection | src/selectors/maneuver_selectors/SteepTurnObserver.js:185-209 | a non-decreasing heading is correct and keeps the counter; a decrease from above 345 to below 15 adds exactly one crossing, any other decrease adds none; a decrease is correct exactly when it is an acceptable crossing or ends within 10 degrees of the entry heading |
| SteepTurnObserver.ForwardMoveAdvances | src/selectors/maneuver_selectors/SteepTurnObserver.js:185-209 | a forward move that does not pass the entry heading is accepted with the counter kept, and adds exactly the heading change to the distance flown from entry |
| SteepTurnObserver.ReversalToleranceIsInclusive | src/selectors/maneuver_selectors/SteepTurnObserver.js:203-205 | with entry 350, turning back to 340 is excused and turning back to 339 is not |
| SteepTurnObserver.Overshoot | src/selectors/maneuver_selectors/SteepTurnObserver.js:174-178 | no overshoot is reported while a crossing of north is still acceptable |
| SteepTurnObserver.OvershootPastEntryPlusTolerance | src/selectors/maneuver_selectors/SteepTurnObserver.js:174-178 | for a compass entry heading, overshoot means no crossing left and the heading past (entry + 10) modulo 360 |
| SteepTurnObserver.RolledOutCorrectly | src/selectors/maneuver_selectors/SteepTurnObserver.js:158-169 | a roll-out has bank at most 10 and the heading within 10 of entry; with no crossing left, those two conditions are also sufficient; before any crossing, an entry heading of 10 or more cannot roll out; while a crossing is still acceptable, an entry above 350 rolls out after one crossing at a heading up to 360, and an entry below 10 rolls out before any crossing, in both cases with bank at most 10 and heading within 10; after one crossing an entry of 350 or less, or after two crossings any entry, cannot roll out while the flag is set |
| SteepTurnObserver.Progress | src/selectors/maneuver_selectors/SteepTurnObserver.js:136-152 | progress is exactly 100 or the forward distance as a share of 360; for compass headings it lies in [0, 100], and it is 100 exactly when less than 10 degrees remain forward and either no crossing is left or the counter is 1 |
| SteepTurnObserver.FlooredMean | src/selectors/maneuver_selectors/SteepTurnObserver.js:227-241 | the mean is 0 for an empty channel, else the greatest integer not above sum/count |
| SteepTurnObserver.FlooredMeanWithinLimits | src/selectors/maneuver_selectors/SteepTurnObserver.js:231-248 | the floored mean of a well-formed channel is at most the upper limit and more than the lower limit minus one |
| SteepTurnObserver.Summarize | src/selectors/maneuver_selectors/SteepTurnObserver.js:243-261 | a channel summary carries the floored mean and the limits, and is within range exactly when the mean is within the allowed deviation of the target |
| SteepTurnObserver.AssemblePerformanceOverview | src/selectors/maneuver_selectors/SteepTurnObserver.js:225-265 | each channel entry holds the floored mean and the channel's lower and upper limit; altitude is within range iff the mean is within 100 of the entry altitude; airspeed iff within 10 of the entry airspeed; bank iff within 5 of 45; the roll-out heading is passed on; the roll-out flag needs a recorded roll-out heading and then holds iff it is within 10 of entry |
| SteepTurnObserver.RecordForCycle | src/selectors/maneuver_selectors/SteepTurnObserver.js:79-84 | the first recording cycle starts every channel from the sample value (count 1; sum, last value and limits equal to it); later cycles change only the channels; the invariant holds afterwards |
| SteepTurnObserver.Judge | src/selectors/maneuver_selectors/SteepTurnObserver.js:86-100 | the checks of a significant cycle in source order: crossing acceptability from the counter as it stood; direction and overshoot with that flag; roll-out and progress with the counter the direction check left; no overshoot while a crossing is acceptable; a roll-out only with level wings near entry; a non-decreasing heading always correct; progress within [0, 100] |
| SteepTurnObserver.Step | src/selectors/maneuver_selectors/SteepTurnObserver.js:64-129 | not recording: no termination, the state unchanged except that the attempt's data is marked stale, and success, progress and performance repeated from it. Recording: the stored analysis is the performance output, which is the overview of the new record; the first sample starts each channel from its value (count 1; sum, last value and limits equal to it). A cycle whose heading moved at most 1 degree runs no checks: the record is the updated one and it neither terminates nor succeeds. Otherwise it terminates iff the turn reversed, overshot or rolled out; it succeeds iff it rolled out with all three means in range; the channels are the updated ones; progress output and stored progress are the computed progress; the last heading becomes the sample's; the roll-out heading is the sample's on a roll-out and kept otherwise. Within an attempt the crossing counter never decreases, and the invariant is preserved |
| SteepTurnObserver.IdleStepsRepeatPerformance | src/selectors/maneuver_selectors/SteepTurnObserver.js:108-128 | while not recording, the selector keeps returning the overview stored by the last recording cycle |
| SteepTurnObserver.SuccessImpliesRollOutWithinRange | src/selectors/maneuver_selectors/SteepTurnObserver.js:94-117 | on compass headings a successful cycle also reports the roll-out heading as within range, because success needs a roll-out, which records the sample's heading within 10 degrees of entry |
| SteepTurnObserver.CrossingAcceptabilityNeverRegained | src/selectors/maneuver_selectors/SteepTurnObserver.js:86-104 | once the counter rules out a further crossing of north, no later sample of the same attempt makes one acceptable again |
| RequirementsCalculator.CalculateSteepTurnRequirements | src/selectors/RequirementsCalculator.js:28-51 | three items in fixed order with fixed descriptions; altitude strictly above 2500, airspeed 90 to 100 and rpm 2185 to 2415 (both ends included); the overall flag is the conjunction and agrees with the item list |
| RequirementsCalculator.GetManeuverRequirements | src/selectors/RequirementsCalculator.js:12-26 | steep turns get the calculated requirements; any other selection is never fulfilled and has no item list; the overall flag holds iff steep turns are selected and all three requirements hold |
| RequirementsCalculator.Boundaries | src/selectors/RequirementsCalculator.js:30-32 | 2500 ft AGL fails; 90 and 100 knots pass; 2185 and 2415 rpm pass; values just outside fail |
| RequirementsCalculator.GatingExamples | src/selectors/RequirementsCalculator.js:28-51 | a sample meeting all three requirements is fulfilled; the same sample at 2000 ft fails on the altitude item only |
| ManeuverStatusObserver.GetManeuverStatus | src/selectors/ManeuverStatusObserver.js:20-34 | a status exists iff steep turns are selected; engagement iff not ended, not recording, all requirements met and bank at least 45 either side; stop iff not ended, recording and the observer says terminate; never both; the observer output is passed through |
| RequirementsContainer.GetRequirementsSteepTurns | src/container/RequirementsContainer.js:8-26 | three items with the calculator's descriptions in order; altitude fulfilled iff above 2500 ft AGL; airspeed and rpm always unfulfilled |
| RequirementsContainer.GetRequirementsPowerOnStalls | src/container/RequirementsContainer.js:28-31 | power-on stalls list no requirements |
| RequirementsContainer.GetRequirementsItems | src/container/RequirementsContainer.js:33-43 | steep turns get the steep-turn list; power-on stalls and no selection get an empty list |
| RequirementsContainer.AgreesWithCalculator | src/container/RequirementsContainer.js:8-26 | the older list has the calculator's items and the same altitude verdict, and never marks fulfilled an item the calculator judges unfulfilled |
| Reducers.ManeuverReducer | src/reducers/reducers.js:22-73 | select sets the maneuver and clears recording, ended, entry settings and outcome; reset does the same with no selection; restart keeps the selection and clears the rest; start records with the sample as entry settings and keeps selection and outcome; stop ends with the outcome flag and keeps entry settings and selection; any other action changes nothing; the lifecycle invariant is preserved |
| Reducers.ReachableManeuverStatesAreWellFormed | src/reducers/reducers.js:22-73 | every state reachable by any action sequence from a well-formed state is well formed: recording implies entry settings and not ended; ended implies an outcome |
| Reducers.RestartAndResetIdempotent | src/reducers/reducers.js:38-53 | restarting twice is restarting once; resetting twice gives the initial maneuver state |
| Reducers.FlightDataReducer | src/reducers/reducers.js:105-141 | a position frame sets exactly heading, both elevations and roll; an rpm or airspeed dataref sets only its field; an unknown dataref and any other action leave the data unchanged |
| Reducers.RposLastWriterWins | src/reducers/reducers.js:111-119 | a newer position frame completely overrides an older one |
| Reducers.RposAndDatarefCommute | src/reducers/reducers.js:111-136 | a position frame and a dataref frame commute |
| Reducers.DataProviderReducerAsWritten | src/reducers/reducers.js:75-101 | as written: same provider returns the state; a new provider or a status change sets provider and status but drops the configuration |
| Reducers.ConfigurationsLostAsWritten | src/reducers/reducers.js:87-97 | counterexample: from the initial state, switching provider or reporting a connection loses the stored configuration |
| Reducers.DataProviderReducer | src/reducers/reducers.js:75-101 | corrected: the configuration is kept by every action; same provider returns the state; a new provider sets it and NOT_CONNECTED; a status change keeps the provider and sets the status; other actions change nothing |
| Reducers.DataProviderCorrectionOnlyKeepsConfigurations | src/reducers/reducers.js:82-97 | the corrected and the as-written reducer agree on provider and connection status for every state and action |
| Reducers.AppReducer | src/reducers/reducers.js:194-199 | as wired, with the provider reducer as written: each action touches only its own slice (maneuver, flight data or provider); a provider switch or a status report sets provider and status and leaves no configuration; re-selecting the same provider or any other action changes nothing; the maneuver invariant is preserved |
| Reducers.CorrectedAppReducer | src/reducers/reducers.js:75-101 | the store with the corrected provider reducer keeps the configuration on every action, with the same slice frames |
| Reducers.CorrectedStoreDiffersOnlyInConfigurations | src/reducers/reducers.js:194-199 | the wired and the corrected store agree on maneuver, flight data, provider and connection status for every state and action |
| Reducers.StoreLosesConfigurationOnConnect | src/reducers/reducers.js:92-97 | counterexample on the wired store: a connection report from the initial state leaves no configuration, where the corrected store keeps it |
| LegacyReducers.ManeuverSelectionReducer | src/redux/reducers.js:11-21 | select returns the chosen maneuver, termination returns no selection, anything else keeps the selection |
| LegacyReducers.SelectionAgreesWithStore | src/redux/reducers.js:11-21 | the legacy selection agrees with the store's maneuver reducer: selecting selects the same maneuver, termination clears it as reset does, other actions keep it |
| LegacyReducers.CountEntries | src/redux/reducers.js:63-71 | the number of entries of a maneuver is at most the list length |
| LegacyReducers.InitialUserPerformances | src/redux/reducers.js:40-56 | one entry per maneuver type in type order, all statistics zero, and exactly one entry for each type |
| LegacyReducers.RecordCompletion | src/redux/reducers.js:63-71 | the list keeps its length and order; matching entries gain exactly one in frequency; every other field and entry is unchanged |
| LegacyReducers.CompletionAddsMatchingEntries | src/redux/reducers.js:63-71 | a completion raises the total frequency by the number of entries of that maneuver |
| LegacyReducers.UserPerformancesReducer | src/redux/reducers.js:38-76 | an undefined state yields the initial list; a completion gives the per-entry update of the completed maneuver (matching entries gain one, order and all other fields kept) and adds the matching count to the total; other actions keep the list |
| LegacyReducers.CompletionFromInitial | src/redux/reducers.js:40-71 | from the initial list one completion raises the total frequency from 0 to exactly 1 |
| ManeuverOverviewItem.Passed | src/components/ManeuverOverviewItem.js:16-31 | the number of thresholds reached is at most the number of thresholds |
| ManeuverOverviewItem.AccuracyRank | src/components/ManeuverOverviewItem.js:16-31 | the rank indexes one of the six accuracy labels |
| ManeuverOverviewItem.AccuracyRankBands | src/components/ManeuverOverviewItem.js:18-30 | the rank is 0 below 20, 1 on [20, 40), 2 on [40, 60), 3 on [60, 80), 4 on [80, 90) and 5 from 90 up |
| ManeuverOverviewItem.GetAccuracyDescriptor | src/components/ManeuverOverviewItem.js:16-31 | the descriptor is one of the six labels, the one the threshold count selects; "Very poor" iff below 20, "Excellent" iff 90 or more, values above 100 included |
| ManeuverOverviewItem.PassedMonotone | src/components/ManeuverOverviewItem.js:18-30 | a larger value reaches at least as many thresholds |
| ManeuverOverviewItem.AccuracyMonotone | src/components/ManeuverOverviewItem.js:18-30 | a higher accuracy never gets a worse label |
| ManeuverOverviewItem.AccuracyLabelsDistinct | src/components/ManeuverOverviewItem.js:19-29 | the six labels are pairwise distinct |
| ManeuverOverviewItem.GetFrequencyDescriptor | src/components/ManeuverOverviewItem.js:38-51 | "Not trained" iff 0; "Low" iff non-zero and at most 2; "Medium" iff in (2, 5]; "High" iff in (5, 8]; "Very high" iff above 8 |
| ManeuverOverviewItem.Exceeded | src/components/ManeuverOverviewItem.js:40-50 | the number of thresholds strictly exceeded is at most the number of thresholds |
| ManeuverOverviewItem.ExceededBands | src/components/ManeuverOverviewItem.js:40-50 | the count of exceeded thresholds is 0 up to 0, 1 on (0, 2], 2 on (2, 5], 3 on (5, 8] and 4 above 8 |
| ManeuverOverviewItem.ExceededMonotone | src/components/ManeuverOverviewItem.js:40-50 | a larger value exceeds at least as many thresholds |
| ManeuverOverviewItem.FrequencyRank | src/components/ManeuverOverviewItem.js:38-51 | the label at the computed rank is the descriptor; on non-negative values the rank is the number of thresholds exceeded (0 for zero), and a negative value takes rank 1 ("Low") |
| ManeuverOverviewItem.FrequencyMonotoneOnCounts | src/components/ManeuverOverviewItem.js:40-50 | on non-negative counts more training never gets a lower label |
| ManeuverOverviewItem.NegativeFrequencyIsLow | src/components/ManeuverOverviewItem.js:40-43 | a negative frequency is labelled "Low", ranked above "Not trained" |
| ProviderConfigurations.ToUpperAscii | src/components/ProviderConfigurations.js:65 | a lower-case ASCII letter becomes its capital; any other character is kept |
| ProviderConfigurations.ReplaceFirstUnderscore | src/components/ProviderConfigurations.js:65 | the replacement keeps the length |
| ProviderConfigurations.ReplaceFirstUnderscoreSpec | src/components/ProviderConfigurations.js:65 | every non-underscore is kept; an underscore becomes a space iff no underscore precedes it; later underscores stay |
| ProviderConfigurations.ItemDisplayName | src/components/ProviderConfigurations.js:63-66 | the name grows by 2 and ends in ": "; the first character is upper-cased; the rest has its first underscore replaced; the empty name gives ": " |
| ProviderConfigurations.ReplaceAfterPlainPrefix | src/components/ProviderConfigurations.js:65 | characters before the first underscore pass through unchanged |
| ProviderConfigurations.DisplayNameWithUnderscore | src/components/ProviderConfigurations.js:63-66 | a name first + prefix + "_" + suffix, with no underscore in prefix, displays as capital first + prefix + " " + suffix + ": " |
| ProviderConfigurations.DisplayNameExample | src/components/ProviderConfigurations.js:57-66 | "automated_search" displays as "Automated search: ", with a space after the colon |
| ProviderConfigurations.AutomatedSearchDisplayName | src/components/ProviderConfigurations.js:63-66 | any key equal to "automated_search" displays as "Automated search: " |
| ProviderConfigurations.DisplayNameKeepsLaterUnderscores | src/components/ProviderConfigurations.js:65 | "a_b_c" displays as "A b_c: " and the empty name as ": " |
| ProviderConfigurations.ConfigurationItems | src/components/ProviderConfigurations.js:10-44 | the number of rendered items is 2 x booleans + strings: the provider key and numbers yield nothing; the items equal `ExpectedItems`, a per-entry reference fold (a toggle and a text input per boolean entry, a text input per string entry, in entry order) |

## Left out

- Simulator I/O in `src/api/xplaneConnector.js`: UDP sockets, frame parsing and IEEE-754 float decoding. It is input, not evaluation logic.
- React rendering: the indicator components, screens, containers other than the requirement list, and pixel arithmetic.
- `reselect` memoisation: every selector is modelled as a plain function of its inputs, evaluated once per new input.
- The action-creator files: their action types are the `Action` and `LegacyAction` datatypes.
- The `flightData` reducer of `src/redux/reducers.js` (lines 23-36): it reads unbound identifiers, so every position frame throws.
- The `userPerformances` reducer of `src/reducers/reducers.js` (lines 143-181): it reacts only to an action type that is never exported, so it is left out of `AppState`. Its twin in `src/redux/reducers.js` is modelled.
- Floating point: telemetry and headings are exact `real` numbers, so IEEE rounding is not modelled.
- `src/atoms/ManeuverTypes.js` is not part of this model. The maneuver types are taken to be steep turns and power-on stalls, in that order.
- `src/atoms/XPlaneDataRefs.js` is not part of this model. Datarefs other than engine rpm and indicated airspeed are one `OtherDataref` case.
- The initial maneuver state leaves `maneuverEnded` undefined. Every reader negates it, so the model starts it as false.
- Headings.StandardScale: its contract covers [-360, 720), not the closed range [-360, +720] the comment documents, because at 720 the code returns 360 (`StandardScaleAtDocumentedUpperBound`). The observer only passes an entry heading plus 10, which lies in [10, 370).
- ManeuverOverviewItem.GetAccuracyDescriptor: an undefined accuracy is not modelled. The briefing room renders overview items without `accuracy` and `frequency` (src/screens/BriefingRoom.js:39-47); every comparison with undefined is false, so the program shows "Excellent" there. The real-valued model has no such value.
- ManeuverOverviewItem.GetFrequencyDescriptor: likewise, an undefined frequency is shown as "Very high" and is not modelled.
- ProviderConfigurations.ToUpperAscii: only ASCII letters are capitalised, not the full Unicode case mapping of `toUpperCase`.
- ProviderConfigurations.ReplaceFirstUnderscore: its own contract states only the length. The full characterisation is `ReplaceFirstUnderscoreSpec`.
- ProviderConfigurations.ConfigurationItems: a rendered row is a caption plus toggle state or text input, not a view tree. Entry order is the order of the configuration sequence.
- SteepTurnObserver.Step: the first evaluation's lazy initialisation of an undefined record is folded into `InitialObserverState`.

## Findings

| source | as written | input that shows it | evidently intended | confidence | as-written member | corrected member |
|---|---|---|---|---|---|---|
| src/reducers/reducers.js:87-97 | `Object.assign({}, dataProvider, ...)` copies from the reducer function `dataProvider` instead of `state`, so the result has no `configurations` | initial state, then SET_DATA_PROVIDER with a different provider, or CONNECTION_STATUS_CHANGED | copy `state`, so the configuration survives provider and status changes | not executed | Reducers.ConfigurationsLostAsWritten | Reducers.DataProviderReducer |

The store (`Reducers.AppReducer`) is wired with the provider reducer as
written, as the program is. `Reducers.CorrectedAppReducer` is the same
store with the corrected provider reducer.

=== FILE: criteria.dfy ===
/** Criteria for a successful steep turn (src/atoms/criteria/SteepTurnCriteria.js). */
module SteepTurnCriteria {

  /** The bank angle to hold during the turn, degrees. */
  const ManeuverBankAngle: real := 45.0

  /** Allowed deviation (+/-) of the mean bank, degrees. */
  const BankDeviationAllowed: real := 5.0

  /** Allowed deviation (+/-) of the roll-out heading, degrees. */
  const RollOutDeviationAllowed: real := 10.0

  /** Allowed deviation (+/-) of the mean altitude from entry, feet. */
  const AltitudeDeviationAllowed: real := 100.0

  /** Allowed deviation (+/-) of the mean airspeed from entry, knots. */
  const AirspeedDeviationAllowed: real := 10.0
}

=== FILE: flight.dfy ===
/** Values shared by the selectors and the reducers: the flight sample held in
    the store, the maneuver types, and the data-provider vocabulary. */
module Flight {

  /** The store's `flightData`: heading and elevations from RPOS frames, RPM
      and airspeed from dataref frames. Degrees, feet, knots, rpm. */
  datatype FlightData = FlightData(
    heading: real,
    elevASL: real,
    elevAGL: real,
    roll: real,
    engineRPM: real,
    indicatedAirspeed: real)

  /** The flight data the store starts with: every field zero. */
  const InitialFlightData := FlightData(0.0, 0.0, 0.0, 0.0, 0.0, 0.0)

  /** The maneuvers a user can train. */
  datatype ManeuverType = SteepTurns | PowerOnStalls

  /** Every maneuver type, in declaration order. */
  const AllManeuverTypes: seq<ManeuverType> := [SteepTurns, PowerOnStalls]

  /** `maneuverSelected`: NONE_SELECTED or one maneuver type. */
  datatype Selection = NoneSelected | Selected(maneuver: ManeuverType)

  /** The dataref names a dataref frame can carry. */
  datatype Dataref = EngineRpm | IndicatedAirspeed | OtherDataref(name: string)

  datatype DataProviderKind = XPlane | Gps

  datatype ConnectionStatus = Connected | NotConnected

  /** A configuration value as JavaScript's `typeof` sees it. */
  datatype ConfigValue = BoolValue(b: bool) | StringValue(s: string) | NumberValue(n: real)

  /** One key/value pair of a provider configuration object, in the order
      `Object.entries` yields them. */
  datatype ConfigEntry = ConfigEntry(key: string, value: ConfigValue)
}

=== FILE: headings.dfy ===
/** Heading arithmetic on the circular domain [0, 360) degrees, as used by the
    steep-turn observer (src/selectors/maneuver_selectors/SteepTurnObserver.js). */
module Headings {

  const FullCircle: real := 360.0
  const HalfCircle: real := 180.0

  /** A heading on the standard compass scale. */
  predicate IsHeading(h: real) {
    0.0 <= h < FullCircle
  }

  /** a and b differ by a whole number of turns. */
  ghost predicate Congruent(a: real, b: real) {
    ((a - b) / FullCircle).Floor as real == (a - b) / FullCircle
  }

  function Abs(x: real): (r: real)
    ensures r >= 0.0 && (r == x || r == -x)
  {
    if x < 0.0 then -x else x
  }

  function Min(a: real, b: real): real {
    if a <= b then a else b
  }

  /** Reference definition: the representative of x modulo 360 in [0, 360). */
  function Mod360(x: real): (r: real)
    ensures IsHeading(r)
    ensures Congruent(x, r)
  {
    var turns := (x / FullCircle).Floor;
    assert (x - (x - FullCircle * turns as real)) / FullCircle == turns as real;
    x - FullCircle * turns as real
  }

  /** On one turn either side of zero, Mod360 adds or removes at most one turn. */
  lemma Mod360Near(x: real)
    requires -FullCircle <= x < 2.0 * FullCircle
    ensures x < 0.0 ==> Mod360(x) == x + FullCircle
    ensures 0.0 <= x < FullCircle ==> Mod360(x) == x
    ensures FullCircle <= x ==> Mod360(x) == x - FullCircle
  {
    if x < 0.0 {
      assert (x / FullCircle).Floor == -1;
    } else if x < FullCircle {
      assert (x / FullCircle).Floor == 0;
    } else {
      assert (x / FullCircle).Floor == 1;
    }
  }

  /** getHeadingOnStandardScale: maps a heading in [-360, 720) onto [0, 360).
      The observer only passes an entry heading plus 10, which lies in [10, 370). */
  function StandardScale(heading: real): (r: real)
    ensures -FullCircle <= heading < 2.0 * FullCircle ==> IsHeading(r)
    ensures IsHeading(heading) ==> r == heading
  {
    if heading >= FullCircle then heading - FullCircle
    else if heading < 0.0 then heading + FullCircle
    else heading
  }

  /** The upper end of the documented range [-360, +720] is not handled:
      720 maps to 360, which is not a compass heading. */
  lemma StandardScaleAtDocumentedUpperBound()
    ensures StandardScale(720.0) == 360.0
    ensures !IsHeading(StandardScale(720.0))
  {
  }

  /** On [-360, 720), StandardScale is reduction modulo 360. */
  lemma {:induction false} StandardScaleIsMod360(heading: real)
    requires -FullCircle <= heading < 2.0 * FullCircle
    ensures StandardScale(heading) == Mod360(heading)
    ensures Congruent(heading, StandardScale(heading))
  {
    Mod360Near(heading);
  }

  /** calculateRealDistanceBetweenTwoHeadings: the shorter way round the circle. */
  function CircularDistance(heading1: real, heading2: real): (d: real)
    ensures IsHeading(heading1) && IsHeading(heading2) ==>
              0.0 <= d <= HalfCircle && (d == 0.0 <==> heading1 == heading2)
  {
    var distance := Abs(heading1 - heading2);
    if distance > HalfCircle then FullCircle - distance else distance
  }

  /** The circular distance is the shorter of the two ways round, each
      measured by the reference modulus. */
  lemma {:induction false} CircularDistanceIsShorterWay(heading1: real, heading2: real)
    requires IsHeading(heading1) && IsHeading(heading2)
    ensures CircularDistance(heading1, heading2)
            == Min(Mod360(heading1 - heading2), Mod360(heading2 - heading1))
  {
    Mod360Near(heading1 - heading2);
    Mod360Near(heading2 - heading1);
  }

  /** calculateHeadingDistanceFromStartingPoint: how far the plane has turned
      forward (clockwise) from the entry heading. */
  function ForwardDistance(entryHeading: real, currentHeading: real): (d: real)
    ensures IsHeading(entryHeading) && IsHeading(currentHeading) ==> IsHeading(d)
  {
    var distance := Abs(entryHeading - currentHeading);
    if entryHeading > currentHeading then FullCircle - distance else distance
  }

  /** The forward distance is the difference of the headings modulo 360. */
  lemma {:induction false} ForwardDistanceIsMod360(entryHeading: real, currentHeading: real)
    requires IsHeading(entryHeading) && IsHeading(currentHeading)
    ensures ForwardDistance(entryHeading, currentHeading) == Mod360(currentHeading - entryHeading)
  {
    Mod360Near(currentHeading - entryHeading);
  }

  lemma CircularDistanceSymmetric(heading1: real, heading2: real)
    ensures CircularDistance(heading1, heading2) == CircularDistance(heading2, heading1)
  {
  }

  /** The forward distances out and back always add up to a whole turn,
      unless the two headings coincide. */
  lemma ForwardDistanceComplement(a: real, b: real)
    requires IsHeading(a) && IsHeading(b) && a != b
    ensures ForwardDistance(a, b) + ForwardDistance(b, a) == FullCircle
  {
  }

  /** The circular distance is the shorter of the two forward distances. */
  lemma CircularIsShorterForward(a: real, b: real)
    requires IsHeading(a) && IsHeading(b)
    ensures CircularDistance(a, b) == Min(ForwardDistance(a, b), ForwardDistance(b, a))
  {
  }

  lemma Examples()
    ensures StandardScale(367.0) == 7.0
    ensures CircularDistance(10.0, 30.0) == 20.0
    ensures CircularDistance(350.0, 10.0) == 20.0
    ensures ForwardDistance(10.0, 350.0) == 340.0
  {
  }
}

=== FILE: legacy_reducers.dfy ===
/** The reducers of the older store shape (src/redux/reducers.js): the
    maneuver selection and the per-maneuver training statistics. */
module LegacyReducers {
  import opened Wrappers
  import opened Flight
  import Store = Reducers

  datatype LegacyAction =
    | SetSelectedManeuver(maneuver: ManeuverType)
    | SetManeuverTerminated
    | SignalRposDataReceived(heading: real, elevASL: real, elevAGL: real, roll: real)
    | CompletedManeuverPerformance(accuracy: real, maneuver: ManeuverType)
    | OtherLegacyAction

  /** The `maneuverSelection` reducer. */
  function ManeuverSelectionReducer(state: Selection, action: LegacyAction): (r: Selection)
    ensures action.SetSelectedManeuver? ==> r == Selected(action.maneuver)
    ensures action.SetManeuverTerminated? ==> r == NoneSelected
    ensures !action.SetSelectedManeuver? && !action.SetManeuverTerminated? ==> r == state
  {
    match action
    case SetSelectedManeuver(m) => Selected(m)
    case SetManeuverTerminated => NoneSelected
    case _ => state
  }

  /** The legacy selection reducer picks the same selection as the store's
      maneuver reducer: selecting a maneuver selects it, termination and
      reset both clear the selection, and other actions keep it. */
  lemma SelectionAgreesWithStore(x: Store.ManeuverState, m: ManeuverType)
    ensures ManeuverSelectionReducer(x.maneuverSelected, SetSelectedManeuver(m))
            == Store.ManeuverReducer(x, Store.SetSelectedManeuver(m)).maneuverSelected
    ensures ManeuverSelectionReducer(x.maneuverSelected, SetManeuverTerminated)
            == Store.ManeuverReducer(x, Store.ResetCurrentManeuver).maneuverSelected
    ensures ManeuverSelectionReducer(x.maneuverSelected, OtherLegacyAction)
            == Store.ManeuverReducer(x, Store.OtherAction).maneuverSelected
  {
  }

  /** Training statistics of one maneuver type. */
  datatype PerformanceEntry = PerformanceEntry(
    maneuver: ManeuverType,
    accuracy: real,
    frequency: int,
    overallTrainingStatus: real)

  /** How many entries belong to the given maneuver. */
  function CountEntries(entries: seq<PerformanceEntry>, m: ManeuverType): (n: nat)
    ensures n <= |entries|
  {
    if |entries| == 0 then 0
    else (if entries[0].maneuver == m then 1 else 0) + CountEntries(entries[1..], m)
  }

  /** CountEntries on a two-entry list, unfolded. */
  lemma CountEntriesOfPair(entries: seq<PerformanceEntry>)
    requires |entries| == 2
    ensures forall m: ManeuverType :: CountEntries(entries, m)
              == (if entries[0].maneuver == m then 1 else 0) + (if entries[1].maneuver == m then 1 else 0)
  {
    assert entries[1..][1..] == [];
  }

  /** The sum of all recorded frequencies. */
  function TotalFrequency(entries: seq<PerformanceEntry>): int {
    if |entries| == 0 then 0 else entries[0].frequency + TotalFrequency(entries[1..])
  }

  /** The initial list: one untrained entry per maneuver type, in type order. */
  function InitialUserPerformances(): (r: seq<PerformanceEntry>)
    ensures |r| == |AllManeuverTypes|
    ensures forall i :: 0 <= i < |r| ==>
              && r[i].maneuver == AllManeuverTypes[i]
              && r[i].accuracy == 0.0 && r[i].frequency == 0 && r[i].overallTrainingStatus == 0.0
    ensures forall m: ManeuverType :: CountEntries(r, m) == 1
  {
    var r := seq(|AllManeuverTypes|, i requires 0 <= i < |AllManeuverTypes| =>
                   PerformanceEntry(AllManeuverTypes[i], 0.0, 0, 0.0));
    CountEntriesOfPair(r);
    r
  }

  /** The COMPLETED_MANEUVER_PERFORMANCE case: one more training for every
      entry of the completed maneuver; nothing else changes. */
  function RecordCompletion(entries: seq<PerformanceEntry>, m: ManeuverType): (r: seq<PerformanceEntry>)
    ensures |r| == |entries|
    ensures forall i :: 0 <= i < |entries| ==>
              && r[i].maneuver == entries[i].maneuver
              && r[i].accuracy == entries[i].accuracy
              && r[i].overallTrainingStatus == entries[i].overallTrainingStatus
              && r[i].frequency == entries[i].frequency + (if entries[i].maneuver == m then 1 else 0)
  {
    if |entries| == 0 then []
    else
      var head := if entries[0].maneuver == m then entries[0].(frequency := entries[0].frequency + 1)
                  else entries[0];
      [head] + RecordCompletion(entries[1..], m)
  }

  /** A completion adds exactly the number of matching entries to the total. */
  lemma {:induction false} CompletionAddsMatchingEntries(entries: seq<PerformanceEntry>, m: ManeuverType)
    ensures TotalFrequency(RecordCompletion(entries, m)) == TotalFrequency(entries) + CountEntries(entries, m)
  {
    if |entries| > 0 {
      CompletionAddsMatchingEntries(entries[1..], m);
      assert RecordCompletion(entries, m)[1..] == RecordCompletion(entries[1..], m);
    }
  }

  /** The `userPerformances` reducer. An undefined state yields the initial
      list whatever the action. */
  function UserPerformancesReducer(state: Option<seq<PerformanceEntry>>, action: LegacyAction)
    : (r: seq<PerformanceEntry>)
    ensures state.None? ==> r == InitialUserPerformances()
    ensures state.Some? && action.CompletedManeuverPerformance? ==>
              && r == RecordCompletion(state.value, action.maneuver)
              && |r| == |state.value|
              && TotalFrequency(r) == TotalFrequency(state.value) + CountEntries(state.value, action.maneuver)
    ensures state.Some? && !action.CompletedManeuverPerformance? ==> r == state.value
  {
    match state
    case None => InitialUserPerformances()
    case Some(entries) =>
      match action
      case CompletedManeuverPerformance(_, m) =>
        CompletionAddsMatchingEntries(entries, m);
        RecordCompletion(entries, m)
      case _ => entries
  }

  /** From the initial list, one completion raises the total by exactly one. */
  lemma CompletionFromInitial(m: ManeuverType)
    ensures TotalFrequency(UserPerformancesReducer(Some(InitialUserPerformances()),
                                                   CompletedManeuverPerformance(0.0, m))) == 1
  {
    var init := InitialUserPerformances();
    assert TotalFrequency(init) == 0 by {
      assert init[1..][1..] == [];
    }
  }
}

=== FILE: maneuver_overview_item.dfy ===
/** The accuracy and frequency descriptors of the maneuver overview
    (src/components/ManeuverOverviewItem.js). */
module ManeuverOverviewItem {

  /** The accuracy labels, worst first. */
  const AccuracyLabels: seq<string> := ["Very poor", "Poor", "Acceptable", "Good", "Very good", "Excellent"]

  /** Accuracy thresholds, percent: passing the i-th lifts the label to index i + 1. */
  const AccuracyThresholds: seq<real> := [20.0, 40.0, 60.0, 80.0, 90.0]

  /** Reference definition: how many thresholds the value has reached. */
  function Passed(thresholds: seq<real>, value: real): (n: nat)
    ensures n <= |thresholds|
  {
    if |thresholds| == 0 then 0
    else (if thresholds[0] <= value then 1 else 0) + Passed(thresholds[1..], value)
  }

  /** The rank of an accuracy: 0 for "Very poor" up to 5 for "Excellent". */
  function AccuracyRank(accuracy: real): (rank: nat)
    ensures rank < |AccuracyLabels|
  {
    Passed(AccuracyThresholds, accuracy)
  }

  /** Passed, unfolded over the five accuracy thresholds. */
  lemma {:induction false} AccuracyRankBands(accuracy: real)
    ensures AccuracyRank(accuracy)
            == if accuracy < 20.0 then 0 else if accuracy < 40.0 then 1 else if accuracy < 60.0 then 2
               else if accuracy < 80.0 then 3 else if accuracy < 90.0 then 4 else 5
  {
    var a := accuracy;
    assert Passed([90.0], a) == (if 90.0 <= a then 1 else 0) + Passed([], a);
    assert Passed([80.0, 90.0], a) == (if 80.0 <= a then 1 else 0) + Passed([90.0], a);
    assert Passed([60.0, 80.0, 90.0], a) == (if 60.0 <= a then 1 else 0) + Passed([80.0, 90.0], a);
    assert Passed([40.0, 60.0, 80.0, 90.0], a)
           == (if 40.0 <= a then 1 else 0) + Passed([60.0, 80.0, 90.0], a);
    assert Passed(AccuracyThresholds, a)
           == (if 20.0 <= a then 1 else 0) + Passed([40.0, 60.0, 80.0, 90.0], a);
  }

  /** getAccuracyDescriptor. Values of 90 or more, including those above 100,
      are "Excellent". */
  function GetAccuracyDescriptor(accuracy: real): (descriptor: string)
    ensures descriptor in AccuracyLabels
    ensures descriptor == AccuracyLabels[AccuracyRank(accuracy)]
    ensures accuracy < 20.0 <==> descriptor == "Very poor"
    ensures 90.0 <= accuracy <==> descriptor == "Excellent"
  {
    AccuracyRankBands(accuracy);
    if accuracy < 20.0 then "Very poor"
    else if accuracy < 40.0 then "Poor"
    else if accuracy < 60.0 then "Acceptable"
    else if accuracy < 80.0 then "Good"
    else if accuracy < 90.0 then "Very good"
    else "Excellent"
  }

  /** Reaching thresholds is monotone in the value. */
  lemma {:induction false} PassedMonotone(thresholds: seq<real>, a: real, b: real)
    requires a <= b
    ensures Passed(thresholds, a) <= Passed(thresholds, b)
  {
    if |thresholds| > 0 {
      PassedMonotone(thresholds[1..], a, b);
    }
  }

  /** A higher accuracy never gets a worse label. */
  lemma {:induction false} AccuracyMonotone(a: real, b: real)
    requires a <= b
    ensures AccuracyRank(a) <= AccuracyRank(b)
  {
    PassedMonotone(AccuracyThresholds, a, b);
  }

  /** The labels are pairwise distinct, so each accuracy has exactly one. */
  lemma AccuracyLabelsDistinct()
    ensures forall i, j :: 0 <= i < j < |AccuracyLabels| ==> AccuracyLabels[i] != AccuracyLabels[j]
  {
  }

  /** The frequency labels, least trained first. */
  const FrequencyLabels: seq<string> := ["Not trained", "Low", "Medium", "High", "Very high"]

  /** getFrequencyDescriptor. */
  function GetFrequencyDescriptor(frequency: real): (descriptor: string)
    ensures descriptor in FrequencyLabels
    ensures descriptor == "Not trained" <==> frequency == 0.0
    ensures descriptor == "Low" <==> frequency != 0.0 && frequency <= 2.0
    ensures descriptor == "Medium" <==> 2.0 < frequency <= 5.0
    ensures descriptor == "High" <==> 5.0 < frequency <= 8.0
    ensures descriptor == "Very high" <==> 8.0 < frequency
  {
    if frequency == 0.0 then "Not trained"
    else if frequency <= 2.0 then "Low"
    else if frequency <= 5.0 then "Medium"
    else if frequency <= 8.0 then "High"
    else "Very high"
  }

  /** Frequency thresholds: a non-zero count strictly above the i-th gets
      label index i + 1. */
  const FrequencyThresholds: seq<real> := [0.0, 2.0, 5.0, 8.0]

  /** Reference definition: how many thresholds the value strictly exceeds. */
  function Exceeded(thresholds: seq<real>, value: real): (n: nat)
    ensures n <= |thresholds|
  {
    if |thresholds| == 0 then 0
    else (if thresholds[0] < value then 1 else 0) + Exceeded(thresholds[1..], value)
  }

  lemma {:induction false} ExceededMonotone(thresholds: seq<real>, a: real, b: real)
    requires a <= b
    ensures Exceeded(thresholds, a) <= Exceeded(thresholds, b)
  {
    if |thresholds| > 0 {
      ExceededMonotone(thresholds[1..], a, b);
    }
  }

  /** Exceeded, unfolded over the four frequency thresholds. */
  lemma {:induction false} ExceededBands(frequency: real)
    ensures Exceeded(FrequencyThresholds, frequency)
            == if frequency <= 0.0 then 0 else if frequency <= 2.0 then 1 else if frequency <= 5.0 then 2
               else if frequency <= 8.0 then 3 else 4
  {
    var f := frequency;
    assert Exceeded([8.0], f) == (if 8.0 < f then 1 else 0) + Exceeded([], f);
    assert Exceeded([5.0, 8.0], f) == (if 5.0 < f then 1 else 0) + Exceeded([8.0], f);
    assert Exceeded([2.0, 5.0, 8.0], f) == (if 2.0 < f then 1 else 0) + Exceeded([5.0, 8.0], f);
    assert Exceeded(FrequencyThresholds, f) == (if 0.0 < f then 1 else 0) + Exceeded([2.0, 5.0, 8.0], f);
  }

  /** The position of a frequency's label in FrequencyLabels: zero is
      untrained, a negative value is counted as if it exceeded the first
      threshold. */
  function FrequencyRank(frequency: real): (rank: nat)
    ensures rank < |FrequencyLabels| && FrequencyLabels[rank] == GetFrequencyDescriptor(frequency)
    ensures frequency >= 0.0 ==>
              rank == (if frequency == 0.0 then 0 else Exceeded(FrequencyThresholds, frequency))
    ensures frequency < 0.0 ==> rank == 1
  {
    ExceededBands(frequency);
    if frequency == 0.0 then 0
    else Exceeded(FrequencyThresholds, frequency) + (if frequency < 0.0 then 1 else 0)
  }

  /** On training counts (never negative) more training never gets a lower
      label. */
  lemma {:induction false} FrequencyMonotoneOnCounts(a: real, b: real)
    requires 0.0 <= a <= b
    ensures FrequencyRank(a) <= FrequencyRank(b)
  {
    ExceededMonotone(FrequencyThresholds, a, b);
  }

  /** A negative frequency is "Low", so the labels are not monotone below zero. */
  lemma NegativeFrequencyIsLow()
    ensures GetFrequencyDescriptor(-1.0) == "Low"
    ensures FrequencyRank(-1.0) > FrequencyRank(0.0)
  {
  }
}

=== FILE: maneuver_status_observer.dfy ===
/** The high-level maneuver status (src/selectors/ManeuverStatusObserver.js):
    whether the pilot may engage the maneuver, whether it must stop, and the
    steep-turn observer's output. */
module ManeuverStatusObserver {
  import opened Wrappers
  import opened Flight
  import opened RequirementsCalculator
  import opened SteepTurnObserver

  /** Bank angle (either side) at which the steep turn counts as engaged, degrees. */
  const EngagementBank: real := 45.0

  datatype ManeuverStatus = ManeuverStatus(
    userFulfilledEngagementCriteria: bool,
    maneuverStopCriteriaReached: bool,
    maneuverPerformance: ObserverOutput)

  /** getManeuverStatus. The switch has a case for steep turns only, so any
      other selection yields no status at all. */
  function GetManeuverStatus(
    selected: Selection,
    flightData: FlightData,
    requirements: RequirementSet,
    recording: bool,
    ended: bool,
    performance: ObserverOutput)
    : (status: Option<ManeuverStatus>)
    ensures status.Some? <==> selected == Selected(SteepTurns)
    ensures status.Some? ==>
              (status.value.userFulfilledEngagementCriteria <==>
                 && !ended
                 && !recording
                 && requirements.allRequirementsFulfilled
                 && (flightData.roll <= -EngagementBank || flightData.roll >= EngagementBank))
    ensures status.Some? ==>
              (status.value.maneuverStopCriteriaReached <==>
                 !ended && recording && performance.terminateManeuver)
    ensures status.Some? ==>
              !(status.value.userFulfilledEngagementCriteria && status.value.maneuverStopCriteriaReached)
    ensures status.Some? ==> status.value.maneuverPerformance == performance
  {
    match selected
    case Selected(SteepTurns) =>
      Some(ManeuverStatus(
        !ended && !recording && requirements.allRequirementsFulfilled
        && (flightData.roll <= -EngagementBank || flightData.roll >= EngagementBank),
        !ended && recording && performance.terminateManeuver,
        performance))
    case _ => None
  }
}

=== FILE: performance_record.dfy ===
/** The running statistics the steep-turn observer keeps for altitude,
    airspeed and bank (the `performanceRecord` of
    src/selectors/maneuver_selectors/SteepTurnObserver.js). */
module PerformanceRecord {
  import opened Wrappers
  import opened Headings

  /** Running statistics of one tracked quantity. */
  datatype Channel = Channel(
    sum: real,
    countRecordings: nat,
    lastRecorded: real,
    lower: real,
    upper: real)

  /** What every channel keeps true: the last value and the mean lie within
      the recorded limits. The mean is stated without division, as
      lower * count <= sum <= upper * count. */
  predicate ChannelInvariant(c: Channel) {
    && c.countRecordings >= 1
    && c.lower <= c.lastRecorded <= c.upper
    && c.lower * (c.countRecordings as real) <= c.sum <= c.upper * (c.countRecordings as real)
  }

  function Max(a: real, b: real): real { if a <= b then b else a }

  /** A channel after its first recording. */
  function StartChannel(v: real): (c: Channel)
    ensures ChannelInvariant(c)
    ensures c.countRecordings == 1 && c.sum == v && c.lastRecorded == v
    ensures c.lower == v && c.upper == v
  {
    Channel(v, 1, v, v, v)
  }

  /** One pass of the update loop on one channel: a value equal to the last
      recorded one is ignored; any other is summed, counted, remembered, and
      widens one limit. */
  function RecordValue(c: Channel, v: real): (c': Channel)
    ensures v == c.lastRecorded ==> c' == c
    ensures v != c.lastRecorded ==>
              && c'.countRecordings == c.countRecordings + 1
              && c'.sum == c.sum + v
              && c'.lastRecorded == v
    ensures ChannelInvariant(c) && v != c.lastRecorded ==>
              c'.lower == Min(c.lower, v) && c'.upper == Max(c.upper, v)
    ensures ChannelInvariant(c) ==> ChannelInvariant(c')
  {
    if v == c.lastRecorded then c
    else
      var counted := c.(sum := c.sum + v, countRecordings := c.countRecordings + 1, lastRecorded := v);
      if v > c.upper then counted.(upper := v)
      else if v < c.lower then counted.(lower := v)
      else counted
  }

  /** The three tracked quantities, in the order the update loop visits them. */
  datatype ChannelKey = Altitude | Airspeed | Bank

  const ChannelKeys: seq<ChannelKey> := [Altitude, Airspeed, Bank]

  /** The observer's working memory for one maneuver attempt. */
  datatype Record = Record(
    altitude: Channel,
    airspeed: Channel,
    bank: Channel,
    rollOutHeading: Option<real>,
    crossedZeroHeadingCounter: nat,
    lastHeading: real,
    progressInPercent: real)
  {
    function Get(key: ChannelKey): Channel {
      match key
      case Altitude => altitude
      case Airspeed => airspeed
      case Bank => bank
    }

    /** Replaces one channel; the other channels and all heading bookkeeping
        stay as they were. */
    function Set(key: ChannelKey, c: Channel): (r: Record)
      ensures r.Get(key) == c
      ensures forall k :: k != key ==> r.Get(k) == Get(k)
      ensures SameBookkeeping(this, r)
    {
      match key
      case Altitude => this.(altitude := c)
      case Airspeed => this.(airspeed := c)
      case Bank => this.(bank := c)
    }
  }

  /** Two records agree on everything except the three channels. */
  predicate SameBookkeeping(r: Record, r': Record) {
    && r'.rollOutHeading == r.rollOutHeading
    && r'.crossedZeroHeadingCounter == r.crossedZeroHeadingCounter
    && r'.lastHeading == r.lastHeading
    && r'.progressInPercent == r.progressInPercent
  }

  predicate RecordInvariant(r: Record) {
    && ChannelInvariant(r.altitude)
    && ChannelInvariant(r.airspeed)
    && ChannelInvariant(r.bank)
    && 0.0 <= r.progressInPercent <= 100.0
  }

  /** initializeRecording: every channel starts from one recording of the
      given value, and the heading bookkeeping starts from zero. */
  function InitializeRecording(elevASL: real, airspeed: real, bank: real): (r: Record)
    ensures RecordInvariant(r)
    ensures r.altitude == StartChannel(elevASL)
    ensures r.airspeed == StartChannel(airspeed)
    ensures r.bank == StartChannel(bank)
    ensures r.rollOutHeading == None && r.crossedZeroHeadingCounter == 0
    ensures r.lastHeading == 0.0 && r.progressInPercent == 0.0
  {
    Record(StartChannel(elevASL), StartChannel(airspeed), StartChannel(bank), None, 0, 0.0, 0.0)
  }

  /** updatePerformanceRecord, as a function of the three new values. */
  function UpdatePerformanceRecord(r: Record, elevASL: real, airspeed: real, bank: real): (r': Record)
    ensures SameBookkeeping(r, r')
    ensures RecordInvariant(r) ==> RecordInvariant(r')
  {
    r.(altitude := RecordValue(r.altitude, elevASL),
       airspeed := RecordValue(r.airspeed, airspeed),
       bank := RecordValue(r.bank, bank))
  }

  /** The update loop of updatePerformanceRecord, one channel per pass in key
      order. Channel i is updated from value i alone. */
  method UpdateChannels(r: Record, values: seq<real>) returns (updated: Record)
    requires |values| == |ChannelKeys|
    ensures forall i :: 0 <= i < |ChannelKeys| ==>
              updated.Get(ChannelKeys[i]) == RecordValue(r.Get(ChannelKeys[i]), values[i])
    ensures SameBookkeeping(r, updated)
    ensures updated == UpdatePerformanceRecord(r, values[0], values[1], values[2])
  {
    updated := r;
    var counter := 0;
    while counter <= 2
      invariant 0 <= counter <= 3
      invariant forall i :: 0 <= i < counter ==>
                  updated.Get(ChannelKeys[i]) == RecordValue(r.Get(ChannelKeys[i]), values[i])
      invariant forall i :: counter <= i < 3 ==> updated.Get(ChannelKeys[i]) == r.Get(ChannelKeys[i])
      invariant SameBookkeeping(r, updated)
    {
      var key := ChannelKeys[counter];
      updated := updated.Set(key, RecordValue(updated.Get(key), values[counter]));
      counter := counter + 1;
    }
    assert updated.Get(Altitude) == RecordValue(r.altitude, values[0]);
    assert updated.Get(Airspeed) == RecordValue(r.airspeed, values[1]);
    assert updated.Get(Bank) == RecordValue(r.bank, values[2]);
  }

  /** The mean of a channel lies between its limits. */
  lemma {:induction false} MeanWithinLimits(c: Channel)
    requires ChannelInvariant(c)
    ensures c.lower <= c.sum / (c.countRecordings as real) <= c.upper
  {
    var n := c.countRecordings as real;
    assert c.sum == (c.sum / n) * n;
  }
}

=== FILE: provider_configurations.dfy ===
/** Configuration items of a data provider
    (src/components/ProviderConfigurations.js): the display name of a
    configuration key, and the list of items built from a configuration. */
module ProviderConfigurations {
  import opened Flight

  /** The upper-case form of an ASCII letter; any other character is kept. */
  function ToUpperAscii(c: char): (u: char)
    ensures 'a' <= c <= 'z' ==> 'A' <= u <= 'Z' && u as int == c as int - 32
    ensures !('a' <= c <= 'z') ==> u == c
  {
    if 'a' <= c <= 'z' then (c as int - 32) as char else c
  }

  /** `replace(/_/, " ")`: the first underscore becomes a space; the pattern
      has no `g` flag, so later underscores stay. */
  function ReplaceFirstUnderscore(s: string): (r: string)
    ensures |r| == |s|
  {
    if |s| == 0 then []
    else if s[0] == '_' then [' '] + s[1..]
    else [s[0]] + ReplaceFirstUnderscore(s[1..])
  }

  /** What ReplaceFirstUnderscore changes: exactly the first underscore,
      which becomes a space; every other character is kept. */
  lemma {:induction false} ReplaceFirstUnderscoreSpec(s: string)
    ensures forall i :: 0 <= i < |s| && s[i] != '_' ==> ReplaceFirstUnderscore(s)[i] == s[i]
    ensures forall i :: 0 <= i < |s| && s[i] == '_' ==>
              (ReplaceFirstUnderscore(s)[i] == ' ' <==> forall j :: 0 <= j < i ==> s[j] != '_')
    ensures forall i :: 0 <= i < |s| && s[i] == '_' && ReplaceFirstUnderscore(s)[i] != ' ' ==>
              ReplaceFirstUnderscore(s)[i] == '_'
  {
    if |s| > 0 && s[0] != '_' {
      ReplaceFirstUnderscoreSpec(s[1..]);
      var r := ReplaceFirstUnderscore(s);
      assert r == [s[0]] + ReplaceFirstUnderscore(s[1..]);
      forall i | 1 <= i < |s|
        ensures r[i] == ReplaceFirstUnderscore(s[1..])[i - 1] && s[i] == s[1..][i - 1]
      {
      }
    }
  }

  /** getItemDisplayName: capitalised first character, first underscore of
      the rest turned into a space, and ": " appended. */
  function ItemDisplayName(name: string): (display: string)
    ensures |display| == |name| + 2
    ensures display[|name|..] == ": "
    ensures |name| > 0 ==> display[0] == ToUpperAscii(name[0])
    ensures |name| > 0 ==> display[1..|name|] == ReplaceFirstUnderscore(name[1..])
  {
    if |name| == 0 then ": "
    else [ToUpperAscii(name[0])] + ReplaceFirstUnderscore(name[1..]) + ": "
  }

  /** Characters before the first underscore pass through unchanged. */
  lemma {:induction false} ReplaceAfterPlainPrefix(prefix: string, rest: string)
    requires '_' !in prefix
    ensures ReplaceFirstUnderscore(prefix + rest) == prefix + ReplaceFirstUnderscore(rest)
  {
    if |prefix| > 0 {
      assert prefix[0] in prefix;
      assert (prefix + rest)[0] == prefix[0];
      assert (prefix + rest)[1..] == prefix[1..] + rest;
      ReplaceAfterPlainPrefix(prefix[1..], rest);
      calc {
        ReplaceFirstUnderscore(prefix + rest);
        [prefix[0]] + ReplaceFirstUnderscore(prefix[1..] + rest);
        [prefix[0]] + (prefix[1..] + ReplaceFirstUnderscore(rest));
        { assert prefix == [prefix[0]] + prefix[1..]; }
        prefix + ReplaceFirstUnderscore(rest);
      }
    } else {
      assert prefix + rest == rest;
    }
  }

  /** The display name of a key whose tail has a first underscore. */
  lemma {:induction false} DisplayNameWithUnderscore(first: char, prefix: string, suffix: string)
    requires '_' !in prefix
    ensures ItemDisplayName([first] + prefix + "_" + suffix)
            == [ToUpperAscii(first)] + prefix + " " + suffix + ": "
  {
    var name := [first] + prefix + "_" + suffix;
    assert name[1..] == prefix + ("_" + suffix);
    ReplaceAfterPlainPrefix(prefix, "_" + suffix);
  }

  /** The display name of a key spelled "automated_search", worked out on a
      parameter so that the verifier does not unfold the literal. */
  lemma AutomatedSearchDisplayName(name: string)
    requires name == "automated_search"
    ensures ItemDisplayName(name) == "Automated search: "
  {
    var prefix, suffix := name[1..9], name[10..];
    assert ItemDisplayName(name) == ['A'] + "utomated" + " " + "search" + ": " by {
      assert name == [name[0]] + prefix + "_" + suffix;
      assert forall i :: 0 <= i < |prefix| ==> prefix[i] != '_';
      DisplayNameWithUnderscore(name[0], prefix, suffix);
    }
    assert ['A'] + "utomated" + " " + "search" + ": " == "Automated search: ";
  }

  /** The documented example; the code appends a space after the colon. */
  lemma DisplayNameExample()
    ensures ItemDisplayName("automated_search") == "Automated search: "
  {
    AutomatedSearchDisplayName("automated_search");
  }

  /** Only the first underscore after the first character is replaced. */
  lemma {:induction false} DisplayNameKeepsLaterUnderscores()
    ensures ItemDisplayName("a_b_c") == "A b_c: "
    ensures ItemDisplayName("") == ": "
  {
    var tail := "_b_c";
    var r := ReplaceFirstUnderscore(tail);
    assert forall i :: 0 <= i < |tail| ==> r[i] == " b_c"[i];
  }

  /** One rendered configuration row: a toggle button or a text input, each
      with its label. */
  datatype ConfigurationItem = ToggleItem(caption: string, enabled: bool) | TextInputItem(caption: string)

  const ProviderKey: string := "provider"

  /** The rows one entry produces. A boolean entry gets its toggle and then,
      by falling through into the string case, a text input too; numbers and
      the provider key produce none. */
  function ItemsFor(entry: ConfigEntry): seq<ConfigurationItem> {
    if entry.key == ProviderKey then []
    else
      match entry.value
      case BoolValue(b) =>
        [ToggleItem(ItemDisplayName(entry.key), b), TextInputItem(ItemDisplayName(entry.key))]
      case StringValue(_) => [TextInputItem(ItemDisplayName(entry.key))]
      case NumberValue(_) => []
  }

  /** The rows of a whole configuration, in entry order. */
  function ExpectedItems(config: seq<ConfigEntry>): seq<ConfigurationItem> {
    if |config| == 0 then []
    else ExpectedItems(config[..|config| - 1]) + ItemsFor(config[|config| - 1])
  }

  /** Entries other than the provider key holding a boolean / a string. */
  function CountBooleans(config: seq<ConfigEntry>): nat {
    if |config| == 0 then 0
    else CountBooleans(config[..|config| - 1])
         + (if config[|config| - 1].key != ProviderKey && config[|config| - 1].value.BoolValue? then 1 else 0)
  }

  function CountStrings(config: seq<ConfigEntry>): nat {
    if |config| == 0 then 0
    else CountStrings(config[..|config| - 1])
         + (if config[|config| - 1].key != ProviderKey && config[|config| - 1].value.StringValue? then 1 else 0)
  }

  /** The loop of ProviderConfigurations over `Object.entries(configuration)`. */
  method ConfigurationItems(config: seq<ConfigEntry>) returns (items: seq<ConfigurationItem>)
    ensures items == ExpectedItems(config)
    ensures |items| == 2 * CountBooleans(config) + CountStrings(config)
  {
    items := [];
    var i := 0;
    while i < |config|
      invariant 0 <= i <= |config|
      invariant items == ExpectedItems(config[..i])
      invariant |items| == 2 * CountBooleans(config[..i]) + CountStrings(config[..i])
    {
      var entry := config[i];
      assert config[..i + 1][..i] == config[..i];
      if entry.key != ProviderKey {
        var itemName := ItemDisplayName(entry.key);
        match entry.value {
          case BoolValue(b) =>
            items := items + [ToggleItem(itemName, b)];
            items := items + [TextInputItem(itemName)];
          case StringValue(_) =>
            items := items + [TextInputItem(itemName)];
          case NumberValue(_) =>
        }
      }
      i := i + 1;
    }
    assert config[..|config|] == config;
  }

}

=== FILE: reducers.dfy ===
/** The store's reducers (src/reducers/reducers.js): the maneuver lifecycle,
    the flight-data merge and the data-provider record, each a total function
    of a state and an action. */
module Reducers {
  import opened Wrappers
  import opened Flight

  /** The actions the reducers react to; every other action type is OtherAction. */
  datatype Action =
    | SetSelectedManeuver(maneuver: ManeuverType)
    | ResetCurrentManeuver
    | RestartCurrentManeuver
    | StartManeuver(flightData: FlightData)
    | StopManeuver(outcomeSuccessful: bool)
    | SignalRposDataReceived(heading: real, elevASL: real, elevAGL: real, roll: real)
    | SignalDatarefReceived(dataref: Dataref, value: real)
    | SetDataProvider(dataProvider: DataProviderKind)
    | ConnectionStatusChanged(connectionStatus: ConnectionStatus)
    | OtherAction

  // ---------------------------------------------------------------------------
  // maneuver

  /** `entrySettings` and `maneuverOutcome` are `{}` (None) until set. */
  datatype ManeuverState = ManeuverState(
    maneuverSelected: Selection,
    maneuverRecording: bool,
    maneuverEnded: bool,
    entrySettings: Option<FlightData>,
    maneuverOutcome: Option<bool>)

  /** The initial state leaves `maneuverEnded` undefined, which every reader
      treats as false. */
  const InitialManeuverState: ManeuverState := ManeuverState(NoneSelected, false, false, None, None)

  /** A recording attempt has entry settings and has not ended; an ended
      attempt has an outcome. */
  predicate ManeuverInvariant(s: ManeuverState) {
    && (s.maneuverRecording ==> s.entrySettings.Some? && !s.maneuverEnded)
    && (s.maneuverEnded ==> s.maneuverOutcome.Some?)
  }

  /** Nothing recorded yet for the current selection. */
  predicate Fresh(s: ManeuverState) {
    !s.maneuverRecording && !s.maneuverEnded && s.entrySettings == None && s.maneuverOutcome == None
  }

  predicate IsManeuverAction(a: Action) {
    a.SetSelectedManeuver? || a.ResetCurrentManeuver? || a.RestartCurrentManeuver?
    || a.StartManeuver? || a.StopManeuver?
  }

  /** The `maneuver` reducer. */
  function ManeuverReducer(state: ManeuverState, action: Action): (r: ManeuverState)
    ensures action.SetSelectedManeuver? ==> r.maneuverSelected == Selected(action.maneuver) && Fresh(r)
    ensures action.ResetCurrentManeuver? ==> r.maneuverSelected == NoneSelected && Fresh(r)
    ensures action.RestartCurrentManeuver? ==> r.maneuverSelected == state.maneuverSelected && Fresh(r)
    ensures action.StartManeuver? ==>
              && r.maneuverRecording && !r.maneuverEnded
              && r.entrySettings == Some(action.flightData)
              && r.maneuverSelected == state.maneuverSelected
              && r.maneuverOutcome == state.maneuverOutcome
    ensures action.StopManeuver? ==>
              && !r.maneuverRecording && r.maneuverEnded
              && r.maneuverOutcome == Some(action.outcomeSuccessful)
              && r.maneuverSelected == state.maneuverSelected
              && r.entrySettings == state.entrySettings
    ensures !IsManeuverAction(action) ==> r == state
    ensures ManeuverInvariant(state) ==> ManeuverInvariant(r)
  {
    match action
    case SetSelectedManeuver(m) => ManeuverState(Selected(m), false, false, None, None)
    case ResetCurrentManeuver => ManeuverState(NoneSelected, false, false, None, None)
    case RestartCurrentManeuver =>
      state.(maneuverEnded := false, maneuverRecording := false, entrySettings := None, maneuverOutcome := None)
    case StartManeuver(fd) =>
      state.(maneuverRecording := true, maneuverEnded := false, entrySettings := Some(fd))
    case StopManeuver(ok) =>
      state.(maneuverRecording := false, maneuverEnded := true, maneuverOutcome := Some(ok))
    case _ => state
  }

  /** The maneuver state after a sequence of actions, oldest first. */
  function ApplyManeuverActions(s: ManeuverState, actions: seq<Action>): ManeuverState
    decreases |actions|
  {
    if |actions| == 0 then s else ApplyManeuverActions(ManeuverReducer(s, actions[0]), actions[1..])
  }

  /** Every maneuver state the store can reach satisfies ManeuverInvariant. */
  lemma {:induction false} ReachableManeuverStatesAreWellFormed(s: ManeuverState, actions: seq<Action>)
    requires ManeuverInvariant(s)
    ensures ManeuverInvariant(ApplyManeuverActions(s, actions))
    decreases |actions|
  {
    if |actions| > 0 {
      ReachableManeuverStatesAreWellFormed(ManeuverReducer(s, actions[0]), actions[1..]);
    }
  }

  /** Restarting forgets the attempt but keeps the selection; resetting also
      forgets the selection. Both are idempotent. */
  lemma RestartAndResetIdempotent(s: ManeuverState)
    ensures ManeuverReducer(ManeuverReducer(s, RestartCurrentManeuver), RestartCurrentManeuver)
            == ManeuverReducer(s, RestartCurrentManeuver)
    ensures ManeuverReducer(ManeuverReducer(s, ResetCurrentManeuver), ResetCurrentManeuver)
            == InitialManeuverState
  {
  }

  // ---------------------------------------------------------------------------
  // flightData

  predicate IsFlightDataAction(a: Action) {
    a.SignalRposDataReceived? || a.SignalDatarefReceived?
  }

  /** The `flightData` reducer. A dataref frame the switch does not name falls
      through to the default case and leaves the state as it was. */
  function FlightDataReducer(state: FlightData, action: Action): (r: FlightData)
    ensures action.SignalRposDataReceived? ==>
              && r.heading == action.heading && r.elevASL == action.elevASL
              && r.elevAGL == action.elevAGL && r.roll == action.roll
              && r.engineRPM == state.engineRPM
              && r.indicatedAirspeed == state.indicatedAirspeed
    ensures action.SignalDatarefReceived? && action.dataref == EngineRpm ==>
              r == state.(engineRPM := action.value)
    ensures action.SignalDatarefReceived? && action.dataref == IndicatedAirspeed ==>
              r == state.(indicatedAirspeed := action.value)
    ensures action.SignalDatarefReceived? && action.dataref.OtherDataref? ==> r == state
    ensures !IsFlightDataAction(action) ==> r == state
  {
    match action
    case SignalRposDataReceived(h, asl, agl, roll) =>
      state.(heading := h, elevASL := asl, elevAGL := agl, roll := roll)
    case SignalDatarefReceived(EngineRpm, v) => state.(engineRPM := v)
    case SignalDatarefReceived(IndicatedAirspeed, v) => state.(indicatedAirspeed := v)
    case _ => state
  }

  /** A newer position frame overwrites an older one completely. */
  lemma RposLastWriterWins(s: FlightData, a: Action, b: Action)
    requires a.SignalRposDataReceived? && b.SignalRposDataReceived?
    ensures FlightDataReducer(FlightDataReducer(s, a), b) == FlightDataReducer(s, b)
  {
  }

  /** Position frames and dataref frames write disjoint fields, so their
      order does not matter. */
  lemma RposAndDatarefCommute(s: FlightData, rpos: Action, dataref: Action)
    requires rpos.SignalRposDataReceived? && dataref.SignalDatarefReceived?
    ensures FlightDataReducer(FlightDataReducer(s, rpos), dataref)
            == FlightDataReducer(FlightDataReducer(s, dataref), rpos)
  {
  }

  // ---------------------------------------------------------------------------
  // dataProvider

  datatype DataProviderState = DataProviderState(
    dataProvider: DataProviderKind,
    connectionStatus: ConnectionStatus,
    configurations: Option<seq<ConfigEntry>>)

  const DefaultConfiguration: seq<ConfigEntry> := [
    ConfigEntry("provider", StringValue("X-Plane")),
    ConfigEntry("automated_search", BoolValue(false)),
    ConfigEntry("iP_address", StringValue("192.168.1.26")),
    ConfigEntry("port", NumberValue(49000.0))]

  const InitialDataProviderState: DataProviderState :=
    DataProviderState(XPlane, NotConnected, Some(DefaultConfiguration))

  /** The `dataProvider` reducer as written: its two updates copy from the
      reducer function instead of from the state, so the result has no
      `configurations`. */
  function DataProviderReducerAsWritten(state: DataProviderState, action: Action): (r: DataProviderState)
    ensures action.SetDataProvider? && action.dataProvider == state.dataProvider ==> r == state
    ensures action.SetDataProvider? && action.dataProvider != state.dataProvider ==>
              r.dataProvider == action.dataProvider && r.connectionStatus == NotConnected
              && r.configurations == None
    ensures action.ConnectionStatusChanged? ==>
              r.dataProvider == state.dataProvider && r.connectionStatus == action.connectionStatus
              && r.configurations == None
    ensures !action.SetDataProvider? && !action.ConnectionStatusChanged? ==> r == state
  {
    match action
    case SetDataProvider(p) =>
      if state.dataProvider == p then state else DataProviderState(p, NotConnected, None)
    case ConnectionStatusChanged(status) => DataProviderState(state.dataProvider, status, None)
    case _ => state
  }

  /** Counterexample: switching provider from the initial state loses the
      configuration the state started with. */
  lemma ConfigurationsLostAsWritten()
    ensures InitialDataProviderState.configurations.Some?
    ensures DataProviderReducerAsWritten(InitialDataProviderState, SetDataProvider(Gps)).configurations == None
    ensures DataProviderReducerAsWritten(InitialDataProviderState, ConnectionStatusChanged(Connected)).configurations == None
  {
  }

  /** The `dataProvider` reducer with the state copied, as the maneuver
      reducer's `...state` does: same provider and status behaviour, and the
      configuration is kept by every action. */
  function DataProviderReducer(state: DataProviderState, action: Action): (r: DataProviderState)
    ensures r.configurations == state.configurations
    ensures action.SetDataProvider? && action.dataProvider == state.dataProvider ==> r == state
    ensures action.SetDataProvider? && action.dataProvider != state.dataProvider ==>
              r.dataProvider == action.dataProvider && r.connectionStatus == NotConnected
    ensures action.ConnectionStatusChanged? ==>
              r.dataProvider == state.dataProvider && r.connectionStatus == action.connectionStatus
    ensures !action.SetDataProvider? && !action.ConnectionStatusChanged? ==> r == state
  {
    match action
    case SetDataProvider(p) =>
      if state.dataProvider == p then state else state.(dataProvider := p, connectionStatus := NotConnected)
    case ConnectionStatusChanged(status) => state.(connectionStatus := status)
    case _ => state
  }

  /** The correction changes nothing but the configuration. */
  lemma DataProviderCorrectionOnlyKeepsConfigurations(state: DataProviderState, action: Action)
    ensures DataProviderReducer(state, action).dataProvider == DataProviderReducerAsWritten(state, action).dataProvider
    ensures DataProviderReducer(state, action).connectionStatus
            == DataProviderReducerAsWritten(state, action).connectionStatus
  {
  }

  // ---------------------------------------------------------------------------
  // The combined store

  /** The combined state; `userPerformances` is left out (its one case reacts
      to an action type that is never dispatched). */
  datatype AppState = AppState(
    maneuver: ManeuverState,
    flightData: FlightData,
    dataProvider: DataProviderState)

  const InitialAppState: AppState := AppState(InitialManeuverState, InitialFlightData, InitialDataProviderState)

  predicate IsDataProviderAction(a: Action) {
    a.SetDataProvider? || a.ConnectionStatusChanged?
  }

  /** combineReducers, as wired: every action goes to every slice, and the
      provider slice goes through the reducer as written, so a provider
      switch or a status report leaves the store without a configuration. */
  function AppReducer(state: AppState, action: Action): (r: AppState)
    ensures IsManeuverAction(action) ==>
              r.flightData == state.flightData && r.dataProvider == state.dataProvider
    ensures IsFlightDataAction(action) ==>
              r.maneuver == state.maneuver && r.dataProvider == state.dataProvider
    ensures IsDataProviderAction(action) ==>
              r.maneuver == state.maneuver && r.flightData == state.flightData
    ensures action.ConnectionStatusChanged? ==>
              && r.dataProvider.dataProvider == state.dataProvider.dataProvider
              && r.dataProvider.connectionStatus == action.connectionStatus
              && r.dataProvider.configurations == None
    ensures action.SetDataProvider? && action.dataProvider != state.dataProvider.dataProvider ==>
              && r.dataProvider.dataProvider == action.dataProvider
              && r.dataProvider.connectionStatus == NotConnected
              && r.dataProvider.configurations == None
    ensures action.SetDataProvider? && action.dataProvider == state.dataProvider.dataProvider ==> r == state
    ensures action.OtherAction? ==> r == state
    ensures ManeuverInvariant(state.maneuver) ==> ManeuverInvariant(r.maneuver)
  {
    AppState(
      ManeuverReducer(state.maneuver, action),
      FlightDataReducer(state.flightData, action),
      DataProviderReducerAsWritten(state.dataProvider, action))
  }

  /** The store with the corrected provider reducer: the configuration a
      state holds is kept by every action. */
  function CorrectedAppReducer(state: AppState, action: Action): (r: AppState)
    ensures r.dataProvider.configurations == state.dataProvider.configurations
    ensures IsManeuverAction(action) ==>
              r.flightData == state.flightData && r.dataProvider == state.dataProvider
    ensures IsFlightDataAction(action) ==>
              r.maneuver == state.maneuver && r.dataProvider == state.dataProvider
    ensures IsDataProviderAction(action) ==>
              r.maneuver == state.maneuver && r.flightData == state.flightData
    ensures action.OtherAction? ==> r == state
    ensures ManeuverInvariant(state.maneuver) ==> ManeuverInvariant(r.maneuver)
  {
    AppState(
      ManeuverReducer(state.maneuver, action),
      FlightDataReducer(state.flightData, action),
      DataProviderReducer(state.dataProvider, action))
  }

  /** The wired and the corrected store agree on everything but the
      provider configuration. */
  lemma CorrectedStoreDiffersOnlyInConfigurations(state: AppState, action: Action)
    ensures AppReducer(state, action).maneuver == CorrectedAppReducer(state, action).maneuver
    ensures AppReducer(state, action).flightData == CorrectedAppReducer(state, action).flightData
    ensures AppReducer(state, action).dataProvider.dataProvider
            == CorrectedAppReducer(state, action).dataProvider.dataProvider
    ensures AppReducer(state, action).dataProvider.connectionStatus
            == CorrectedAppReducer(state, action).dataProvider.connectionStatus
  {
    DataProviderCorrectionOnlyKeepsConfigurations(state.dataProvider, action);
  }

  /** Counterexample on the wired store: reporting a connection from the
      initial state loses the configuration. */
  lemma StoreLosesConfigurationOnConnect()
    ensures InitialAppState.dataProvider.configurations.Some?
    ensures AppReducer(InitialAppState, ConnectionStatusChanged(Connected)).dataProvider.configurations == None
    ensures CorrectedAppReducer(InitialAppState, ConnectionStatusChanged(Connected)).dataProvider.configurations
            == InitialAppState.dataProvider.configurations
  {
  }
}

=== FILE: requirements_calculator.dfy ===
/** Entry requirements of the selected maneuver
    (src/selectors/RequirementsCalculator.js). */
module RequirementsCalculator {
  import opened Wrappers
  import opened Flight

  datatype RequirementItem = RequirementItem(description: string, fulfilled: bool)

  /** `individualRequirements` is absent for maneuvers without requirements. */
  datatype RequirementSet = RequirementSet(
    allRequirementsFulfilled: bool,
    individualRequirements: Option<seq<RequirementItem>>)

  const AltitudeDescription: string := "Altitude >= 2.500 AGL"
  const AirspeedDescription: string := "KIAS: 95 knots (+/- 5%)"
  const RpmDescription: string := "2300 RPM (+/- 5%)"

  /** The steep-turn requirement descriptions, in display order. */
  const SteepTurnDescriptions: seq<string> := [AltitudeDescription, AirspeedDescription, RpmDescription]

  /** Strictly above 2500 ft AGL. */
  predicate AltitudeRequirement(elevAGL: real) { elevAGL > 2500.0 }

  /** 90 to 100 knots, both ends included. */
  predicate SpeedRequirement(indicatedAirspeed: real) { 90.0 <= indicatedAirspeed <= 100.0 }

  /** 2185 to 2415 rpm, both ends included. */
  predicate RpmRequirement(engineRPM: real) { 2185.0 <= engineRPM <= 2415.0 }

  /** The overall flag agrees with the item list: it holds exactly when every
      listed item is fulfilled. */
  predicate Consistent(req: RequirementSet) {
    req.individualRequirements.Some? ==>
      (req.allRequirementsFulfilled <==>
         forall i :: 0 <= i < |req.individualRequirements.value| ==>
                       req.individualRequirements.value[i].fulfilled)
  }

  /** calculateSteepTurnRequirements. */
  function CalculateSteepTurnRequirements(elevAGL: real, indicatedAirspeed: real, engineRPM: real)
    : (req: RequirementSet)
    ensures req.individualRequirements.Some?
    ensures |req.individualRequirements.value| == |SteepTurnDescriptions|
    ensures forall i :: 0 <= i < |SteepTurnDescriptions| ==>
              req.individualRequirements.value[i].description == SteepTurnDescriptions[i]
    ensures req.individualRequirements.value[0].fulfilled == AltitudeRequirement(elevAGL)
    ensures req.individualRequirements.value[1].fulfilled == SpeedRequirement(indicatedAirspeed)
    ensures req.individualRequirements.value[2].fulfilled == RpmRequirement(engineRPM)
    ensures req.allRequirementsFulfilled <==>
              AltitudeRequirement(elevAGL) && SpeedRequirement(indicatedAirspeed) && RpmRequirement(engineRPM)
    ensures Consistent(req)
  {
    var elevAGLRequirement := elevAGL > 2500.0;
    var speedRequirement := 90.0 <= indicatedAirspeed && indicatedAirspeed <= 100.0;
    var rpmRequirement := 2185.0 <= engineRPM && engineRPM <= 2415.0;
    RequirementSet(
      elevAGLRequirement && speedRequirement && rpmRequirement,
      Some([
        RequirementItem(AltitudeDescription, elevAGLRequirement),
        RequirementItem(AirspeedDescription, speedRequirement),
        RequirementItem(RpmDescription, rpmRequirement)]))
  }

  /** getManeuverRequierements: only steep turns have requirements; any other
      selection is never fulfilled and lists no items. */
  function GetManeuverRequirements(selected: Selection, flightData: FlightData): (req: RequirementSet)
    ensures selected != Selected(SteepTurns) ==>
              !req.allRequirementsFulfilled && req.individualRequirements == None
    ensures selected == Selected(SteepTurns) ==>
              req == CalculateSteepTurnRequirements(flightData.elevAGL, flightData.indicatedAirspeed, flightData.engineRPM)
    ensures req.allRequirementsFulfilled <==>
              && selected == Selected(SteepTurns)
              && AltitudeRequirement(flightData.elevAGL)
              && SpeedRequirement(flightData.indicatedAirspeed)
              && RpmRequirement(flightData.engineRPM)
    ensures Consistent(req)
  {
    if selected == Selected(SteepTurns) then
      CalculateSteepTurnRequirements(flightData.elevAGL, flightData.indicatedAirspeed, flightData.engineRPM)
    else
      RequirementSet(false, None)
  }

  /** The altitude bound is strict; the airspeed and rpm bands are closed. */
  lemma Boundaries()
    ensures !AltitudeRequirement(2500.0) && AltitudeRequirement(2500.5)
    ensures SpeedRequirement(90.0) && SpeedRequirement(100.0)
    ensures !SpeedRequirement(89.9) && !SpeedRequirement(100.1)
    ensures RpmRequirement(2185.0) && RpmRequirement(2415.0)
    ensures !RpmRequirement(2184.9) && !RpmRequirement(2415.1)
  {
  }

  /** A sample that meets every requirement, and the same sample too low:
      only the altitude item fails. */
  lemma GatingExamples()
    ensures CalculateSteepTurnRequirements(2600.0, 95.0, 2300.0).allRequirementsFulfilled
    ensures var low := CalculateSteepTurnRequirements(2000.0, 95.0, 2300.0);
            && !low.allRequirementsFulfilled
            && !low.individualRequirements.value[0].fulfilled
            && low.individualRequirements.value[1].fulfilled
            && low.individualRequirements.value[2].fulfilled
  {
  }
}

=== FILE: requirements_container.dfy ===
/** The older requirement-list builder (src/container/RequirementsContainer.js).
    Only the altitude item is evaluated; the airspeed and rpm items are
    always shown as unfulfilled. */
module RequirementsContainer {
  import opened Flight
  import RC = RequirementsCalculator

  /** getRequirementsSteepTurns. */
  function GetRequirementsSteepTurns(flightData: FlightData): (items: seq<RC.RequirementItem>)
    ensures |items| == |RC.SteepTurnDescriptions|
    ensures forall i :: 0 <= i < |items| ==> items[i].description == RC.SteepTurnDescriptions[i]
    ensures items[0].fulfilled <==> flightData.elevAGL > 2500.0
    ensures !items[1].fulfilled && !items[2].fulfilled
  {
    var elevAGLRequirement := flightData.elevAGL > 2500.0;
    [ RC.RequirementItem(RC.AltitudeDescription, elevAGLRequirement),
      RC.RequirementItem(RC.AirspeedDescription, false),
      RC.RequirementItem(RC.RpmDescription, false) ]
  }

  /** getRequirementsPowerONStalls: power-on stalls have no requirements yet. */
  function GetRequirementsPowerOnStalls(): (items: seq<RC.RequirementItem>)
    ensures |items| == 0
  {
    []
  }

  /** getRequirementsItems. */
  function GetRequirementsItems(selection: Selection, flightData: FlightData): (items: seq<RC.RequirementItem>)
    ensures selection == Selected(SteepTurns) ==> items == GetRequirementsSteepTurns(flightData)
    ensures selection != Selected(SteepTurns) ==> items == []
  {
    match selection
    case Selected(SteepTurns) => GetRequirementsSteepTurns(flightData)
    case Selected(PowerOnStalls) => GetRequirementsPowerOnStalls()
    case _ => []
  }

  /** The older list shows the same items as the requirements calculator, with
      the same altitude verdict, and never claims an item the calculator
      judges unfulfilled. */
  lemma AgreesWithCalculator(flightData: FlightData)
    ensures var older := GetRequirementsSteepTurns(flightData);
            var current := RC.CalculateSteepTurnRequirements(
                             flightData.elevAGL, flightData.indicatedAirspeed, flightData.engineRPM)
                           .individualRequirements.value;
            && |older| == |current|
            && older[0] == current[0]
            && forall i :: 0 <= i < |older| ==>
                 older[i].description == current[i].description
                 && (older[i].fulfilled ==> current[i].fulfilled)
  {
  }
}

=== FILE: steep_turn_observer.dfy ===
/** The steep-turn observer (src/selectors/maneuver_selectors/SteepTurnObserver.js).
    The module-level variables of the source become one ObserverState record,
    and one evaluation of the selector becomes Step(state, sample, recording, entry),
    which returns the next state together with the selector's output. */
module SteepTurnObserver {
  import opened Wrappers
  import opened Headings
  import opened Flight
  import opened PerformanceRecord
  import Criteria = SteepTurnCriteria

  /** Roll-out heading tolerance (+/-), degrees. */
  const HeadingTolerance: real := 10.0

  /** Largest bank angle that counts as rolled out, degrees. */
  const MaximumRolloutBank: real := 10.0

  /** A cycle runs the heading checks only when the heading moved by more than this. */
  const SignificantHeadingChange: real := 1.0

  /** A decrease from above WrapHigh to below WrapLow is a pass through north. */
  const WrapLow: real := 15.0
  const WrapHigh: real := 345.0

  // ---------------------------------------------------------------------------
  // Zero crossing, direction, overshoot, roll-out, progress

  /** isZeroCrossingAcceptable: the plane may still pass through north once
      more. Always before the first crossing; once more after it only when the
      entry heading is within tolerance below 360. */
  function ZeroCrossingAcceptable(crossedZeroHeadingCounter: nat, entryHeading: real): (acceptable: bool)
    ensures crossedZeroHeadingCounter == 0 ==> acceptable
    ensures crossedZeroHeadingCounter == 1 ==> (acceptable <==> entryHeading > 350.0)
    ensures crossedZeroHeadingCounter >= 2 ==> !acceptable
  {
    crossedZeroHeadingCounter == 0
    || (entryHeading > FullCircle - HeadingTolerance && crossedZeroHeadingCounter == 1)
  }

  /** More crossings never make a further crossing acceptable again: the
      step from which CrossingAcceptabilityNeverRegained follows. */
  lemma ZeroCrossingAcceptableAntitone(fewer: nat, more: nat, entryHeading: real)
    requires fewer <= more
    ensures ZeroCrossingAcceptable(more, entryHeading) ==> ZeroCrossingAcceptable(fewer, entryHeading)
  {
  }

  /** Outcome of the direction check, with the possibly incremented counter. */
  datatype DirectionCheck = DirectionCheck(correct: bool, crossedZeroHeadingCounter: nat)

  /** The heading decreased across north, from above 345 to below 15. */
  predicate CrossedNorth(heading: real, lastHeading: real) {
    heading < WrapLow && lastHeading > WrapHigh
  }

  /** isPlaneRollingInCorrectDirection: the turn must not reverse. A decrease
      is excused by a permitted pass through north, or by being within the
      roll-out tolerance of the entry heading. */
  function RollingInCorrectDirection(
    heading: real, lastHeading: real, counter: nat, zeroCrossingAcceptable: bool, entryHeading: real)
    : (v: DirectionCheck)
    ensures heading >= lastHeading ==> v.correct && v.crossedZeroHeadingCounter == counter
    ensures heading < lastHeading && CrossedNorth(heading, lastHeading) ==>
              v.crossedZeroHeadingCounter == counter + 1
    ensures heading < lastHeading && !CrossedNorth(heading, lastHeading) ==>
              v.crossedZeroHeadingCounter == counter
    ensures heading < lastHeading ==>
              (v.correct <==> (CrossedNorth(heading, lastHeading) && zeroCrossingAcceptable)
                              || CircularDistance(heading, entryHeading) <= HeadingTolerance)
  {
    if heading >= lastHeading then DirectionCheck(true, counter)
    else
      var afterCrossing :=
        if heading < WrapLow && lastHeading > WrapHigh then DirectionCheck(zeroCrossingAcceptable, counter + 1)
        else DirectionCheck(false, counter);
      if CircularDistance(heading, entryHeading) <= HeadingTolerance then afterCrossing.(correct := true)
      else afterCrossing
  }

  /** A forward move that does not pass the entry heading is accepted, keeps
      the counter, and advances the distance flown from entry by exactly the
      heading change. */
  lemma {:induction false} ForwardMoveAdvances(
    heading: real, lastHeading: real, counter: nat, zeroCrossingAcceptable: bool, entryHeading: real)
    requires IsHeading(heading) && IsHeading(lastHeading) && IsHeading(entryHeading)
    requires lastHeading <= heading
    requires entryHeading <= lastHeading || heading < entryHeading
    ensures RollingInCorrectDirection(heading, lastHeading, counter, zeroCrossingAcceptable, entryHeading)
            == DirectionCheck(true, counter)
    ensures ForwardDistance(entryHeading, heading)
            == ForwardDistance(entryHeading, lastHeading) + (heading - lastHeading)
  {
    ForwardDistanceIsMod360(entryHeading, heading);
    ForwardDistanceIsMod360(entryHeading, lastHeading);
  }

  /** The reversal tolerance is inclusive: with entry 350, turning back to
      340 is excused, turning back to 339 is not. */
  lemma ReversalToleranceIsInclusive()
    ensures RollingInCorrectDirection(340.0, 342.0, 1, false, 350.0).correct
    ensures !RollingInCorrectDirection(339.0, 342.0, 1, false, 350.0).correct
  {
  }

  /** checkIfPlaneOvershootRollout: the plane has used up its crossings of north
      and is past the entry heading plus tolerance. */
  function Overshoot(zeroCrossingAcceptable: bool, heading: real, entryHeading: real): (overshot: bool)
    ensures zeroCrossingAcceptable ==> !overshot
  {
    !zeroCrossingAcceptable && heading > StandardScale(entryHeading + HeadingTolerance)
  }

  /** For an entry on the compass scale, the overshoot bound is the entry
      heading plus tolerance, reduced modulo 360. */
  lemma {:induction false} OvershootPastEntryPlusTolerance(
    zeroCrossingAcceptable: bool, heading: real, entryHeading: real)
    requires IsHeading(entryHeading)
    ensures Overshoot(zeroCrossingAcceptable, heading, entryHeading)
            <==> !zeroCrossingAcceptable && heading > Mod360(entryHeading + HeadingTolerance)
  {
    StandardScaleIsMod360(entryHeading + HeadingTolerance);
  }

  /** didRollOutCorrectly: level wings near the entry heading, at a point of
      the turn where a full circle can have been flown. `counter` is the
      crossing counter after this cycle's direction check. */
  function RolledOutCorrectly(
    zeroCrossingAcceptable: bool, heading: real, roll: real, entryHeading: real, counter: nat)
    : (rolledOut: bool)
    ensures rolledOut ==> Abs(roll) <= MaximumRolloutBank
    ensures rolledOut ==> CircularDistance(heading, entryHeading) <= HeadingTolerance
    ensures !zeroCrossingAcceptable ==>
              (rolledOut <==> Abs(roll) <= MaximumRolloutBank
                              && CircularDistance(heading, entryHeading) <= HeadingTolerance)
    ensures zeroCrossingAcceptable && counter == 0 && entryHeading >= HeadingTolerance ==> !rolledOut
    // While a crossing of north is still acceptable, an entry heading near
    // north rolls out: above 350 after its one crossing, below 10 before any.
    ensures (&& zeroCrossingAcceptable && counter == 1 && entryHeading > FullCircle - HeadingTolerance
             && heading <= FullCircle && Abs(roll) <= MaximumRolloutBank
             && CircularDistance(heading, entryHeading) <= HeadingTolerance) ==> rolledOut
    ensures (&& zeroCrossingAcceptable && counter == 0 && entryHeading < HeadingTolerance
             && Abs(roll) <= MaximumRolloutBank
             && CircularDistance(heading, entryHeading) <= HeadingTolerance) ==> rolledOut
    ensures zeroCrossingAcceptable && counter == 1 && entryHeading <= FullCircle - HeadingTolerance ==> !rolledOut
    ensures zeroCrossingAcceptable && counter >= 2 ==> !rolledOut
  {
    // `&&` binds tighter than `||`: the last two alternatives are siblings.
    Abs(roll) <= MaximumRolloutBank
    && CircularDistance(heading, entryHeading) <= HeadingTolerance
    && (!zeroCrossingAcceptable
        || (heading <= FullCircle && (entryHeading > FullCircle - HeadingTolerance && counter == 1))
        || (entryHeading < HeadingTolerance && counter == 0))
  }

  /** determineManeuverProgress: the share of the circle flown since entry, or
      exactly 100 once the plane is back within tolerance of the entry heading
      after its crossing of north. */
  function Progress(zeroCrossingAcceptable: bool, entryHeading: real, heading: real, counter: nat)
    : (percent: real)
    ensures percent == 100.0 || percent == ForwardDistance(entryHeading, heading) / FullCircle * 100.0
    ensures IsHeading(entryHeading) && IsHeading(heading) ==> 0.0 <= percent <= 100.0
    ensures IsHeading(entryHeading) && IsHeading(heading) ==>
              (percent == 100.0 <==>
                 ForwardDistance(entryHeading, heading) < HeadingTolerance
                 && (!zeroCrossingAcceptable || counter == 1))
  {
    var travelled := ForwardDistance(entryHeading, heading);
    if travelled < HeadingTolerance
       && (!zeroCrossingAcceptable || (entryHeading <= FullCircle && counter == 1))
    then 100.0
    else (travelled / FullCircle) * 100.0
  }

  // ---------------------------------------------------------------------------
  // Performance overview

  datatype ChannelSummary = ChannelSummary(mean: int, meanWithinRange: bool, upper: real, lower: real)

  datatype PerformanceOverview = PerformanceOverview(
    altitude: ChannelSummary,
    airspeed: ChannelSummary,
    bank: ChannelSummary,
    rollOutHeading: Option<real>,
    rollOutWithinRange: bool)

  /** Math.floor(sum / count), or 0 for a channel with no recordings. */
  function FlooredMean(c: Channel): (mean: int)
    ensures c.countRecordings == 0 ==> mean == 0
    ensures c.countRecordings > 0 ==>
              mean as real <= c.sum / (c.countRecordings as real) < mean as real + 1.0
  {
    if c.countRecordings > 0 then (c.sum / (c.countRecordings as real)).Floor else 0
  }

  /** The floored mean of a well-formed channel lies within its limits, up to
      the one unit the floor can remove. */
  lemma {:induction false} FlooredMeanWithinLimits(c: Channel)
    requires ChannelInvariant(c)
    ensures c.lower - 1.0 < FlooredMean(c) as real <= c.upper
  {
    MeanWithinLimits(c);
  }

  /** One channel's entry of the overview, judged against a target value. */
  function Summarize(c: Channel, target: real, allowed: real): (s: ChannelSummary)
    ensures s.mean == FlooredMean(c)
    ensures s.meanWithinRange <==> target - allowed <= s.mean as real <= target + allowed
    ensures s.upper == c.upper && s.lower == c.lower
  {
    var mean := FlooredMean(c);
    ChannelSummary(mean, Abs(mean as real - target) <= allowed, c.upper, c.lower)
  }

  /** assemblePerformanceOverview. */
  function AssemblePerformanceOverview(r: Record, entry: FlightData): (o: PerformanceOverview)
    ensures o.altitude.mean == FlooredMean(r.altitude)
            && o.altitude.lower == r.altitude.lower && o.altitude.upper == r.altitude.upper
    ensures o.airspeed.mean == FlooredMean(r.airspeed)
            && o.airspeed.lower == r.airspeed.lower && o.airspeed.upper == r.airspeed.upper
    ensures o.bank.mean == FlooredMean(r.bank)
            && o.bank.lower == r.bank.lower && o.bank.upper == r.bank.upper
    ensures o.altitude.meanWithinRange <==>
              Abs(FlooredMean(r.altitude) as real - entry.elevASL) <= Criteria.AltitudeDeviationAllowed
    ensures o.airspeed.meanWithinRange <==>
              Abs(FlooredMean(r.airspeed) as real - entry.indicatedAirspeed) <= Criteria.AirspeedDeviationAllowed
    ensures o.bank.meanWithinRange <==>
              Abs(FlooredMean(r.bank) as real - Criteria.ManeuverBankAngle) <= Criteria.BankDeviationAllowed
    ensures o.rollOutHeading == r.rollOutHeading
    ensures o.rollOutWithinRange ==> r.rollOutHeading.Some?
    ensures r.rollOutHeading.Some? && IsHeading(r.rollOutHeading.value) && IsHeading(entry.heading) ==>
              (o.rollOutWithinRange <==>
                 CircularDistance(r.rollOutHeading.value, entry.heading) <= Criteria.RollOutDeviationAllowed)
  {
    PerformanceOverview(
      Summarize(r.altitude, entry.elevASL, Criteria.AltitudeDeviationAllowed),
      Summarize(r.airspeed, entry.indicatedAirspeed, Criteria.AirspeedDeviationAllowed),
      Summarize(r.bank, Criteria.ManeuverBankAngle, Criteria.BankDeviationAllowed),
      r.rollOutHeading,
      // An undefined roll-out heading gives NaN, and NaN <= 10 is false.
      r.rollOutHeading.Some?
      && Abs(CircularDistance(r.rollOutHeading.value, entry.heading)) <= Criteria.RollOutDeviationAllowed)
  }

  /** The three means are all within their allowed deviations. */
  predicate MeansWithinRange(o: PerformanceOverview) {
    o.altitude.meanWithinRange && o.airspeed.meanWithinRange && o.bank.meanWithinRange
  }

  // ---------------------------------------------------------------------------
  // Observer state and the per-sample step

  /** The source's module-level variables, made explicit. */
  datatype ObserverState = ObserverState(
    record: Record,
    zeroCrossingIsAcceptable: bool,
    maneuverSuccess: bool,
    analysis: Option<PerformanceOverview>,
    performanceDataInitialized: bool)

  /** The state before the first evaluation: the first evaluation of the
      source initializes an undefined record from zeros before doing anything
      else, so starting from that record is the same. */
  const InitialObserverState: ObserverState :=
    ObserverState(InitializeRecording(0.0, 0.0, 0.0), true, false, None, false)

  /** What the selector returns. */
  datatype ObserverOutput = ObserverOutput(
    terminateManeuver: bool,
    maneuverProgress: real,
    maneuverSuccess: bool,
    performance: Option<PerformanceOverview>)

  datatype StepResult = StepResult(state: ObserverState, output: ObserverOutput)

  predicate ObserverInvariant(s: ObserverState) {
    RecordInvariant(s.record)
  }

  /** The record a recording cycle works on: freshly initialized from the
      sample on the first recording cycle of an attempt, then updated with the
      sample's altitude, airspeed and bank. */
  function RecordForCycle(s: ObserverState, sample: FlightData): (r: Record)
    ensures !s.performanceDataInitialized ==>
              && r == InitializeRecording(sample.elevASL, sample.indicatedAirspeed, sample.roll)
              && r.altitude == StartChannel(sample.elevASL)
              && r.airspeed == StartChannel(sample.indicatedAirspeed)
              && r.bank == StartChannel(sample.roll)
    ensures s.performanceDataInitialized ==> SameBookkeeping(s.record, r)
    ensures (s.performanceDataInitialized ==> ObserverInvariant(s)) ==>
              RecordInvariant(r)
  {
    var start :=
      if s.performanceDataInitialized then s.record
      else InitializeRecording(sample.elevASL, sample.indicatedAirspeed, sample.roll);
    UpdatePerformanceRecord(start, sample.elevASL, sample.indicatedAirspeed, sample.roll)
  }

  /** The heading moved enough for this cycle to run the checks. */
  predicate SignificantChange(r: Record, sample: FlightData) {
    Abs(sample.heading - r.lastHeading) > SignificantHeadingChange
  }

  /** The checks of one significant cycle, in the order the source runs them. */
  datatype Verdict = Verdict(
    zeroCrossingAcceptable: bool,
    direction: DirectionCheck,
    overshot: bool,
    rolledOut: bool,
    progress: real)

  function Judge(r: Record, sample: FlightData, entry: FlightData): (v: Verdict)
    // The crossing check runs first, on the counter as it stood; roll-out and
    // progress then see the counter the direction check left.
    ensures v.direction == RollingInCorrectDirection(
              sample.heading, r.lastHeading, r.crossedZeroHeadingCounter, v.zeroCrossingAcceptable, entry.heading)
    ensures v.overshot == Overshoot(v.zeroCrossingAcceptable, sample.heading, entry.heading)
    ensures v.rolledOut == RolledOutCorrectly(
              v.zeroCrossingAcceptable, sample.heading, sample.roll, entry.heading, v.direction.crossedZeroHeadingCounter)
    ensures v.progress == Progress(
              v.zeroCrossingAcceptable, entry.heading, sample.heading, v.direction.crossedZeroHeadingCounter)
    ensures v.zeroCrossingAcceptable == ZeroCrossingAcceptable(r.crossedZeroHeadingCounter, entry.heading)
    ensures v.zeroCrossingAcceptable ==> !v.overshot
    ensures v.rolledOut ==>
              && Abs(sample.roll) <= MaximumRolloutBank
              && CircularDistance(sample.heading, entry.heading) <= HeadingTolerance
    ensures sample.heading >= r.lastHeading ==>
              v.direction.correct && v.direction.crossedZeroHeadingCounter == r.crossedZeroHeadingCounter
    ensures IsHeading(entry.heading) && IsHeading(sample.heading) ==> 0.0 <= v.progress <= 100.0
  {
    var zca := ZeroCrossingAcceptable(r.crossedZeroHeadingCounter, entry.heading);
    var direction := RollingInCorrectDirection(
      sample.heading, r.lastHeading, r.crossedZeroHeadingCounter, zca, entry.heading);
    Verdict(
      zca,
      direction,
      Overshoot(zca, sample.heading, entry.heading),
      // Roll-out and progress see the counter after the direction check.
      RolledOutCorrectly(zca, sample.heading, sample.roll, entry.heading, direction.crossedZeroHeadingCounter),
      Progress(zca, entry.heading, sample.heading, direction.crossedZeroHeadingCounter))
  }

  /** A recording evaluation of the selector; its behaviour is stated by
      the contract of Step. */
  function StepRecording(s: ObserverState, sample: FlightData, entry: FlightData): (res: StepResult)
  {
    var r := RecordForCycle(s, sample);
    if SignificantChange(r, sample) then
      var v := Judge(r, sample, entry);
      var r' := r.(
        crossedZeroHeadingCounter := v.direction.crossedZeroHeadingCounter,
        rollOutHeading := if v.rolledOut then Some(sample.heading) else r.rollOutHeading,
        progressInPercent := v.progress,
        lastHeading := sample.heading);
      var overview := AssemblePerformanceOverview(r', entry);
      var success := v.rolledOut && MeansWithinRange(overview);
      var terminate := !v.direction.correct || v.overshot || v.rolledOut;
      StepResult(
        ObserverState(r', v.zeroCrossingAcceptable, success, Some(overview), true),
        ObserverOutput(terminate, v.progress, success, Some(overview)))
    else
      // No checks ran: the roll-out flag stays undefined, so success is false.
      var overview := AssemblePerformanceOverview(r, entry);
      StepResult(
        ObserverState(r, s.zeroCrossingIsAcceptable, false, Some(overview), true),
        ObserverOutput(false, r.progressInPercent, false, Some(overview)))
  }

  /** getSteepTurnPerformance, evaluated once for a new flight sample. */
  function Step(s: ObserverState, sample: FlightData, recording: bool, entry: FlightData): (res: StepResult)
    // Not recording: the attempt's data is marked stale and the last outputs are repeated.
    ensures !recording ==>
              && !res.output.terminateManeuver
              && res.state == s.(performanceDataInitialized := false)
              && res.state.maneuverSuccess == s.maneuverSuccess
              && res.output.maneuverSuccess == s.maneuverSuccess
              && res.output.maneuverProgress == s.record.progressInPercent
              && res.output.performance == s.analysis
    // Recording: the output reports the new state.
    ensures recording ==>
              && res.state.performanceDataInitialized
              && res.state.analysis == res.output.performance
              && res.output.maneuverSuccess == res.state.maneuverSuccess
              && res.output.maneuverProgress == res.state.record.progressInPercent
              && res.output.performance == Some(AssemblePerformanceOverview(res.state.record, entry))
    // The first recording sample starts every channel from its own value.
    ensures recording && !s.performanceDataInitialized ==>
              && res.state.record.altitude == StartChannel(sample.elevASL)
              && res.state.record.airspeed == StartChannel(sample.indicatedAirspeed)
              && res.state.record.bank == StartChannel(sample.roll)
    // A cycle without a significant heading change runs no checks.
    ensures recording && !SignificantChange(RecordForCycle(s, sample), sample) ==>
              && !res.output.terminateManeuver
              && !res.output.maneuverSuccess
              && res.state.record == RecordForCycle(s, sample)
              && res.state.zeroCrossingIsAcceptable == s.zeroCrossingIsAcceptable
    // A significant cycle terminates on a reversal, an overshoot or a roll-out,
    // and succeeds only on a roll-out with all three means in range.
    ensures recording && SignificantChange(RecordForCycle(s, sample), sample) ==>
              var v := Judge(RecordForCycle(s, sample), sample, entry);
              && res.state.record.lastHeading == sample.heading
              && res.state.record.crossedZeroHeadingCounter == v.direction.crossedZeroHeadingCounter
              && res.state.record.altitude == RecordForCycle(s, sample).altitude
              && res.state.record.airspeed == RecordForCycle(s, sample).airspeed
              && res.state.record.bank == RecordForCycle(s, sample).bank
              && res.state.record.progressInPercent == v.progress
              && res.output.maneuverProgress == v.progress
              && res.state.zeroCrossingIsAcceptable == v.zeroCrossingAcceptable
              && res.output.terminateManeuver == (!v.direction.correct || v.overshot || v.rolledOut)
              && (res.output.maneuverSuccess <==> v.rolledOut && MeansWithinRange(res.output.performance.value))
              && (v.rolledOut ==> res.state.record.rollOutHeading == Some(sample.heading))
              && (!v.rolledOut ==> res.state.record.rollOutHeading == RecordForCycle(s, sample).rollOutHeading)
    // Within an attempt the count of crossings of north never goes down.
    ensures (recording ==> s.performanceDataInitialized) ==>
              res.state.record.crossedZeroHeadingCounter >= s.record.crossedZeroHeadingCounter
    ensures ObserverInvariant(s) && IsHeading(entry.heading) && IsHeading(sample.heading) ==>
              ObserverInvariant(res.state)
  {
    if recording then StepRecording(s, sample, entry)
    else
      StepResult(
        s.(performanceDataInitialized := false),
        ObserverOutput(false, s.record.progressInPercent, s.maneuverSuccess, s.analysis))
  }

  /** Once the counter rules out a further crossing of north, no later
      sample of the same attempt makes one acceptable again. */
  lemma {:induction false} CrossingAcceptabilityNeverRegained(
    s: ObserverState, sample: FlightData, recording: bool, entry: FlightData)
    requires recording ==> s.performanceDataInitialized
    requires !ZeroCrossingAcceptable(s.record.crossedZeroHeadingCounter, entry.heading)
    ensures !ZeroCrossingAcceptable(Step(s, sample, recording, entry).state.record.crossedZeroHeadingCounter,
                                    entry.heading)
  {
    ZeroCrossingAcceptableAntitone(
      s.record.crossedZeroHeadingCounter,
      Step(s, sample, recording, entry).state.record.crossedZeroHeadingCounter,
      entry.heading);
  }

  /** Between recording cycles the selector keeps repeating the overview of
      the last recording cycle. */
  lemma IdleStepsRepeatPerformance(
    s: ObserverState, sample1: FlightData, sample2: FlightData, entry1: FlightData, entry2: FlightData)
    ensures var first := Step(s, sample1, false, entry1);
            && first.output.performance == s.analysis
            && Step(first.state, sample2, false, entry2).output.performance == first.output.performance
  {
  }

  /** A successful cycle on compass headings also reports the roll-out as
      within range: the roll-out it records is within 10 degrees of entry. */
  lemma {:induction false} SuccessImpliesRollOutWithinRange(
    s: ObserverState, sample: FlightData, recording: bool, entry: FlightData)
    requires IsHeading(sample.heading) && IsHeading(entry.heading)
    ensures var res := Step(s, sample, recording, entry);
            recording && res.output.maneuverSuccess ==>
              res.output.performance.Some? && res.output.performance.value.rollOutWithinRange
  {
    var res := Step(s, sample, recording, entry);
    if recording && res.output.maneuverSuccess {
      var r := RecordForCycle(s, sample);
      assert SignificantChange(r, sample);
      var v := Judge(r, sample, entry);
      assert v.rolledOut;
      assert res.state.record.rollOutHeading == Some(sample.heading);
    }
  }
}

=== FILE: wrappers.dfy ===
/** The optional-value datatype used wherever the program leaves a field
    `undefined` or stores an empty object `{}`. */
module Wrappers {

  datatype Option<+T> = None | Some(value: T)
}
